=== FILE: README.md ===
# SD-WAN device lifecycle orchestration: a Dafny model

This project models the decision logic of `automate.py`, the script that drives
a Cisco SD-WAN controller (vManage) through the life of branch edge routers. It
covers five operator workflows:

- commission a new router;
- decommission a closed one;
- replace (RMA) a broken one;
- reclassify a store;
- configure changes on the routers attached to a template, then roll them out.

The model covers the parts of the script that decide something:

- resolving the operator's names (template names, chassis numbers, host names)
  to controller identifiers;
- shaping the per-device template variables between a read and the next attach;
- the order and branching of controller calls in each workflow, including the
  RMA loop that polls a sync action until it reports `done`;
- cloning a device template with one more interface feature.

Every workflow is a pure function. Its inputs are:

- the catalog snapshot the script lists at its start (device templates and
  devices);
- a `Calls.Controller` value that fixes every answer the controller gives
  (template variables, template definitions, the ids of added templates, the
  attached devices, and the statuses successive polls of each sync action
  report);
- the operator's answers and mapping rows.

The result is a `Calls.Run`: the trace of controller calls (`Calls.Event`) and
the error that aborted the workflow, if any. An uncaught Python exception, such
as `next` finding no match or `[0]` on an empty answer, becomes a
`Failures.Error`. The calls made before the error stay in the trace, because the
script neither catches nor rolls back.

Modules follow the script's structure:

- `Catalog`: identifier resolution and the comma split.
- `TemplateInputs`: variable-set edits.
- `Decimal`: the counter's decimal rendering and its injectivity.
- `Cloning`: the template copy.
- `Calls`: events, the controller, and the generic row loop `RunRows`.
- `ActionTracker`: the poll loop.
- `Commissioning`, `Decommissioning`, `Replacement`, `Rollout`: the workflows.
- `Orchestrator`: the menu dispatch.

Behaviour of the script the model keeps as written:

- The RMA wait loop stops only on `done`. A `failed` status is polled past
  like any other status, and there is no timeout.
- Chassis numbers resolve to uuids by filtering the device list. The result is
  in inventory order, not a set. It has at most one entry per device, so it can
  be longer than the chassis list when the inventory repeats a chassis number.
  It is free of duplicates when the inventory's uuids are distinct.
- A name shared by several templates or devices resolves to the first match.
- The rollout overrides are written as flat keys of the variable map, including
  the `/`-shaped ones. They are not resolved as nested paths.
- Reclassification is commissioning with another mapping sheet, and nothing
  else differs.
- Phase one of commissioning replaces a sheet on every export to it. When two
  mapping rows name the same template, the second row's export overwrites the
  first's. Phase two then attaches that template twice with the second row's
  variables, and the first row's devices' variables are never attached.

## Model

| member | source | states |
|---|---|---|
| Catalog.ResolveTemplateId | automate.py:60 | a template name resolves iff some device template has that name, to the id of the first such template in catalog order; otherwise the error names the template |
| Catalog.FindDeviceByChassis | automate.py:97-98 | a chassis number resolves iff some device has it, to the first such device; otherwise a not-found error naming the chassis |
| Catalog.FindDeviceByHostName | automate.py:82 | a host name resolves iff some device carries a host name equal to it (devices without one are skipped), to the first such device |
| Catalog.Split | automate.py:61 | splitting a cell on commas yields at least one part and no part contains a comma |
| Catalog.JoinSplit | automate.py:61 | joining the parts of a split with the separator gives back the cell |
| Catalog.SplitJoin | automate.py:61 | splitting a join of separator-free parts gives back the parts |
| Catalog.ResolveDeviceUuids | automate.py:62 | a uuid is in the result iff some inventory device with that uuid has its chassis number in the list; the result has no more uuids than the inventory has devices |
| Catalog.ResolveCountsSelectedDevices | automate.py:62 | every uuid occurs in the result exactly as often as selected inventory devices carry it, one entry per selected device |
| Catalog.ResolveKeepsInventoryOrder | automate.py:62 | two selected devices appear in the result in inventory order |
| Catalog.ResolveHasNoDuplicates | automate.py:62 | with distinct inventory uuids the result has no duplicates |
| Catalog.DeviceIdsForCell | automate.py:61-62 | a uuid is selected iff its device's chassis number is one of the comma-separated entries of the cell |
| TemplateInputs.StripStatus | automate.py:64-65 | the status key is gone; every other key and its value is kept |
| TemplateInputs.StripStatusIdempotent | automate.py:64-65 | stripping twice equals stripping once |
| TemplateInputs.StripStatusAbsent | automate.py:64-65 | a set without a status is left unchanged |
| TemplateInputs.StripAll | automate.py:64-65 | every set of an answer loses its status and keeps its other entries; the number of sets is kept |
| TemplateInputs.PrepareReplacementInput | automate.py:99-101 | the replacement's set has no status, the device-id key bound to the replacement's uuid, and every other key and value of the broken device's set |
| TemplateInputs.PrepareRolloutInput | automate.py:214-222 | the k-th device's set has no status, has management and system ip 10.10.119.k, host name api-test-k twice, site 119, interface Vlan100 "Changed by API" at 100.100.100.k/24, and keeps every other proposed key and value |
| TemplateInputs.RolloutIdentitiesDistinct | automate.py:215-222 | different counters give different system ips, host names and interface addresses |
| Decimal.NatToString | automate.py:215 | the counter's decimal text is non-empty, all digits, without a leading zero |
| Decimal.ParseNatToString | automate.py:215 | reading the decimal text back gives the counter |
| Decimal.NatToStringInjective | automate.py:215 | different counters have different decimal texts |
| Decimal.PrefixedCounterInjective | automate.py:215-222 | a fixed prefix and suffix around different counters give different strings |
| Cloning.CloneTemplate | automate.py:158-206 | the copy has no template id, name and description suffixed "-Changed", every other field kept, and the new feature appended as an SVI interface to every VPN entry with a sub-template list; every other entry is unchanged |
| Cloning.CloneAddsOneReferencePerTaker | automate.py:201-206 | the copy holds exactly one more sub-template reference per receiving entry, and none is lost |
| ActionTracker.PollUntilDone | automate.py:109-112 | the loop polls at least once, reads the statuses in order, stops at the first "done" and at no earlier status |
| ActionTracker.PollsUpToFirstDone | automate.py:109-112 | with the first "done" at position k the loop polls exactly k+1 times |
| ActionTracker.FourPollsExample | automate.py:109-112 | queued, in progress, in progress, done gives four polls with those statuses |
| ActionTracker.FailedDoesNotStop | automate.py:109-112 | for any statuses, a polled "failed" is never the last poll: the loop polls past it |
| ActionTracker.FailedThenDoneExample | automate.py:109-112 | failed, in progress, done gives three polls |
| Calls.RunRows | automate.py:58-75 | the `for row in mapping` loop: rows run in order and the first failing row ends the loop, keeping the calls already made (the contract is stated by the RunRows lemmas below) |
| Calls.RunRowsCompletes | automate.py:71-75 | a row loop completes iff every row completes, and its trace is the rows' traces in order |
| Calls.RunRowsStopsAtFailure | automate.py:95-120 | the first failing row aborts the loop with its error, and the rows after it make no call |
| Calls.RunRowsFailsAtFirstFailure | automate.py:95-120 | a failing loop ends with the error of a row that failed after every earlier row completed |
| Calls.RunRowsAttachCount | automate.py:71-75 | when each completed row attaches once, a completed loop attaches once per row |
| Calls.RunRowsPairLayout | automate.py:212-223 | when each completed row makes two calls, row i's calls sit at positions 2i and 2i+1 of a completed loop's trace |
| Calls.RunRowsPairAt | automate.py:212-223 | in a completed loop whose rows make two calls each, row i completed and its calls are the loop's calls 2i and 2i+1 |
| Calls.RunRowsSingleLayout | automate.py:71-75 | when each completed row makes one call, row i's call sits at position i of a completed loop |
| Commissioning.ExportRow | automate.py:58-66 | a row completes iff its template resolves; it then fetches the variables of the row's devices from that template and exports them without status to the sheet named after the template; otherwise it makes no call |
| Commissioning.ExportInputs | automate.py:56-66 | phase one: the rows' exports in order, stopping at the first row whose template does not resolve (the contract is stated by the phase-one lemmas below) |
| Commissioning.ExportCompletes | automate.py:56-66 | phase one completes iff every row's template name resolves |
| Commissioning.ExportChangesNothing | automate.py:58-66 | phase one makes no controller call that changes state |
| Commissioning.ExportLayout | automate.py:58-66 | a completed phase one is, for each row in order, one fetch followed by the export of its stripped answer |
| Commissioning.AttachRow | automate.py:71-75 | a row completes iff its template resolves and the workbook has its sheet; it then attaches the template with that sheet's variables |
| Commissioning.AttachInputs | automate.py:68-75 | phase two: the rows' attaches in order, stopping at the first row whose template or sheet is missing (the contract is stated by the phase-two lemmas below) |
| Commissioning.AttachCompletes | automate.py:68-75 | phase two completes iff every row's template resolves and the workbook has a sheet named after it |
| Commissioning.AttachOncePerRow | automate.py:71-75 | a completed phase two makes only attaches, exactly one per row |
| Commissioning.ApplyExports | automate.py:264-272 | writing the exports never drops a sheet of the workbook |
| Commissioning.ApplyExportsUntouched | automate.py:265-272 | a sheet no export names keeps its presence and content |
| Commissioning.ApplyExportsLast | automate.py:265-272 | a sheet holds what the last export naming it wrote |
| Commissioning.ExportPairs | automate.py:58-66 | in a completed phase one, row i completed and its fetch and export are the calls 2i and 2i+1 |
| Commissioning.ExportedSheet | automate.py:58-66 | after a completed phase one over rows naming distinct templates, the sheet of row i holds row i's export |
| Commissioning.AttachesExportedSheet | automate.py:66-75 | for rows naming distinct templates, on the workbook a completed phase one left, row i of phase two attaches row i's template with the status-free variables exported for row i |
| Commissioning.ExportThenAttach | automate.py:58-75 | for rows naming distinct templates, when the operator leaves the exported sheets unchanged, phase two completes and attaches, row by row, each row's template with exactly the status-free variables exported for that row |
| Commissioning.SharedSheetKeepsLastExport | automate.py:66-75 | for two rows naming the same template, when phase one completes, phase two attaches that template twice with the second row's export; the first row's export is lost |
| Commissioning.BranchStdExample | automate.py:58-66 | template Branch-Std as T1 with chassis CH123 as device U1 gives a fetch of T1 for [U1] and an export of the stripped answer |
| Decommissioning.DecommissionRouter | automate.py:80-89 | the workflow completes iff some device has the host name; the first such device is detached, its certificate invalidated, then the controllers synced, in that order; otherwise no call is made |
| Decommissioning.Edge07Example | automate.py:80-89 | host edge-07 on device U7 gives detach U7, invalidate C7/S7, sync |
| Replacement.ReplaceRow | automate.py:96-120 | a row completes iff both chassis numbers resolve, the broken device has a template, and the controller returns variables for it; a failing row makes at most the variable fetch and never touches the broken device, failing with the unresolved chassis number, the missing template or the empty answer, checked in that order |
| Replacement.RetireBrokenDevice | automate.py:104-117 | through TAC the last call deletes the broken device, right after a poll of the sync action reported "done", and only that action is polled; otherwise the device is decommissioned and nothing is polled or deleted |
| Replacement.TacRetirement | automate.py:104-113 | through TAC the broken device is invalidated, synced, polled until done, then deleted once, with no attach |
| Replacement.TacRowTrace | automate.py:96-120 | a completed TAC row is fetch, invalidate, sync, the polls, the delete right after the poll that saw "done", then one attach as the last call |
| Replacement.NonTacRowTrace | automate.py:114-120 | a completed non-TAC row is fetch, decommission, invalidate, sync, attach, with no poll and no delete |
| Replacement.RowAttachesOnceLast | automate.py:99-101 | a completed row attaches once, last, to the broken device's template, with the broken device's variables bound to the replacement's uuid |
| Replacement.RmaAttachesOncePerRow | automate.py:95-120 | a completed RMA run attaches exactly once per row |
| Replacement.Rma | automate.py:92-120 | the run completes iff every row completes; otherwise it ends with the error of a failing row whose earlier rows all completed |
| Replacement.RetirementRemovesFollowDone | automate.py:104-117 | a TAC retirement deletes only the broken device, right after a poll of the sync action it started reported "done"; a non-TAC retirement deletes nothing |
| Replacement.RowRemovesFollowDone | automate.py:95-120 | row i, whether or not it completes, deletes only its own broken device and only right after a poll of row i's own sync action reported "done" |
| Replacement.RmaRemovesFollowDone | automate.py:95-120 | in a whole RMA run, however far it gets, every delete removes the broken device of a TAC row right after a poll of that row's sync action reported "done" |
| Replacement.RmaWithoutTacNeverRemoves | automate.py:114-117 | when no row goes through TAC, the run neither deletes a device nor polls |
| Rollout.RolloutDevice | automate.py:213-223 | a device completes iff the controller returns variables for it from the new template; it is then attached to the new template with its first set overridden for counter k and the other sets unchanged |
| Rollout.RolloutDevices | automate.py:210-225 | the loop over the attached devices, counting from 1, stopping at the first device whose fetch comes back empty (the contract is stated by the rollout lemmas below) |
| Rollout.RolloutCompletes | automate.py:210-225 | the rollout completes iff the controller returns variables from the new template for every listed device |
| Rollout.ConfigureChanges | automate.py:155-226 | an unknown template name makes no call; otherwise the run reads the definition, adds the feature template, adds the copy and lists the attached devices, then rolls out the devices attached to the original template against the copy's id, and completes exactly when that rollout completes |
| Rollout.ConfigureChangesAttachesOncePerDevice | automate.py:210-223 | a completed run attaches exactly once per device attached to the original template |
| Rollout.ConfigureChangesNumbersAttachedDevices | automate.py:210-225 | in a completed run the i-th device attached to the original template is fetched and attached against the copy's id right after the four preparation calls, with counter i+1 |
| Rollout.SubmitsClone | automate.py:158-207 | the added device template is the copy, with no id and the suffixed name, and every later fetch and attach targets the id the controller gave the copy |
| Rollout.RolloutAttachesOncePerDevice | automate.py:212-223 | a completed rollout attaches exactly once per attached device |
| Rollout.RolloutDeviceAt | automate.py:211-225 | in a completed rollout device i is fetched at position 2i and attached with counter i+1 at position 2i+1 |
| Rollout.RolloutNumbersDevices | automate.py:211-225 | a completed rollout numbers the devices 1, 2, ... in the order the controller lists them, one fetch and one attach each |
| Rollout.RolloutIdentitiesUnique | automate.py:211-225 | no two devices of a completed rollout get the same system ip, host name or interface address |
| Rollout.ConfigureChangesNeverRemoves | automate.py:152-226 | configuring changes never deletes a device |
| Orchestrator.TemplateWorkflow | automate.py:54-75 | phase 1 changes nothing on the controller, phase 2 makes only attaches, and any other choice makes no call |
| Orchestrator.WorkflowStarter | automate.py:229-240 | menu entries outside 1 to 5 start nothing |
| Orchestrator.ReclassificationIsCommissioning | automate.py:123-149 | reclassification on its rows equals commissioning on the same rows |
| Orchestrator.TemplateWorkflowNeverRemoves | automate.py:50-75 | neither phase of commissioning or reclassification deletes a device |
| Orchestrator.NoRemoveBeforeSyncDone | automate.py:229-240 | whatever the workflow and however far it gets, a device is deleted only when it is the broken device of a TAC row of the RMA sheet, and only right after a poll of that row's sync action reported "done" |

## Left out

- HTTP, authentication and environment: the request bodies, URLs, the session
  login and the `.env` variables are not modelled. Each controller call is an
  event, and its answer comes from the `Controller` value.
- Spreadsheet I/O: reading and writing the workbook through pandas and openpyxl
  is not modelled, and neither is the mapping-file prompt. Phase one records an
  `Export` event. Phase two reads a `Workbook` map from sheet name to variable
  sets. pandas' conversion of the cells (NaN, numeric types) is not modelled.
- Menus and prompts: the operator's answers arrive in `OperatorInput`. A
  non-numeric menu entry, which makes `int()` raise, is not modelled.
- `time.sleep` between polls and between rollout devices is not modelled,
  because it affects only timing. The rollout's progress message is not
  modelled either.
- The literal feature-template body added by the rollout is not modelled. It
  is the opaque `AddFeatureTemplate` event, and the controller's answer is
  `featureTemplateId`.
- The table from workflow number to mapping sheet name ("Commission", "RMA",
  "Reclassification") is not modelled, because each workflow receives its own
  rows.
- The device and template lists are read once at the start of each workflow.
  They are inputs, not events.
- Missing columns in a mapping row, and missing keys in a controller answer
  other than a device's `templateId` and host name, are not modelled. Those
  would raise KeyError in the script. Rows and devices always carry their
  fields.
- Template variables are strings, while the controller's JSON values may have
  other types. Likewise, the fields of a device template definition other than
  its id, name, description and general templates are kept as strings, while
  the JSON carries booleans, lists and objects there; the clone copies them
  unchanged, so their types do not affect what is modelled. The insertion order of Python dicts is not modelled, because
  maps are unordered.
- Sub-templates nested below the first level of a template definition are not
  modelled, because the clone touches only the first level.
- The rollout's last octet is not checked against 255. The script formats
  whatever the counter reaches, and so does the model.
- `add_template_config` (the SDK import helper) and `get_feature_templates`
  are not modelled, because no workflow calls them.
- ActionTracker.PollUntilDone: requires a "done" among the statuses. The
  script's loop never ends without one, so the non-terminating case is not
  modelled, and RMA runs require every TAC row's sync action to finish.

=== FILE: calls.dfy ===
/** The controller as the workflows see it: every call they make is recorded
    as an event, and every answer they read comes from a `Controller` value
    fixed in advance. A workflow is then a pure function from its inputs and
    the controller's answers to the trace of calls it makes. */
module Calls {
  import opened Wrappers
  import opened Failures
  import opened Catalog
  import opened TemplateInputs
  import opened Cloning

  /** One call to the controller (or, for `Export`, to the workbook). */
  datatype Event =
    | GetInput(templateId: TemplateId, deviceIds: seq<Uuid>)
    | Export(sheet: string, sets: seq<InputSet>)
    | Attach(templateId: TemplateId, sets: seq<InputSet>)
    | Detach(deviceType: string, deviceId: Uuid, deviceIp: string)
    | Invalidate(chassisNumber: string, serialNumber: string)
    | Sync
    | Poll(actionId: string, status: string)
    | Remove(deviceId: Uuid)
    | Decommission(deviceId: Uuid)
    | GetConfig(templateId: TemplateId)
    | AddFeatureTemplate
    | AddDeviceTemplate(config: DeviceTemplateConfig)
    | GetAttached(templateId: TemplateId)

  /** The calls that change the controller's state. */
  predicate Mutates(e: Event)
  {
    e.Attach? || e.Detach? || e.Invalidate? || e.Sync? || e.Remove?
      || e.Decommission? || e.AddFeatureTemplate? || e.AddDeviceTemplate?
  }

  /** The answer to a controller sync: the action's id and the statuses
      successive status requests for it report. */
  datatype SyncAction = SyncAction(id: string, statuses: seq<string>)

  /** The controller's answers. `syncAction(n)` answers the n-th sync call of
      a workflow run, counting from 0. */
  datatype Controller = Controller(
    templateInput: (TemplateId, seq<Uuid>) -> seq<InputSet>,
    templateConfig: TemplateId -> DeviceTemplateConfig,
    featureTemplateId: TemplateId,
    deviceTemplateId: DeviceTemplateConfig -> TemplateId,
    attachedDevices: TemplateId -> seq<Uuid>,
    syncAction: nat -> SyncAction)

  /** The calls a workflow made, and the error that aborted it, if any. */
  datatype Run = Run(trace: seq<Event>, failure: Option<Error>)
  {
    predicate Completed() { failure.None? }
  }

  /** How many events of a trace satisfy `p`. */
  function Count(trace: seq<Event>, p: Event -> bool): nat
  {
    if |trace| == 0 then 0 else (if p(trace[0]) then 1 else 0) + Count(trace[1..], p)
  }

  lemma {:induction false} CountAppend(a: seq<Event>, b: seq<Event>, p: Event -> bool)
    ensures Count(a + b, p) == Count(a, p) + Count(b, p)
  {
    if |a| == 0 {
      assert a + b == b;
    } else {
      assert (a + b)[0] == a[0];
      assert (a + b)[1..] == a[1..] + b;
      CountAppend(a[1..], b, p);
    }
  }

  lemma {:induction false} CountNone(trace: seq<Event>, p: Event -> bool)
    requires forall i :: 0 <= i < |trace| ==> !p(trace[i])
    ensures Count(trace, p) == 0
  {
    if |trace| > 0 {
      CountNone(trace[1..], p);
    }
  }

  /** How many attach calls a trace holds. */
  function AttachCount(trace: seq<Event>): nat
  {
    Count(trace, (e: Event) => e.Attach?)
  }

  lemma AttachCountAppend(a: seq<Event>, b: seq<Event>)
    ensures AttachCount(a + b) == AttachCount(a) + AttachCount(b)
  {
    CountAppend(a, b, (e: Event) => e.Attach?);
  }

  lemma AttachCountNone(trace: seq<Event>)
    requires forall i :: 0 <= i < |trace| ==> !trace[i].Attach?
    ensures AttachCount(trace) == 0
  {
    CountNone(trace, (e: Event) => e.Attach?);
  }

  /** The script's `for row in mapping:` loop: the step runs for rows[from..]
      in order and the first failing row aborts the loop, keeping the calls
      already made. */
  function RunRows<R>(rows: seq<R>, step: (nat, R) --> Run, from: nat): (run: Run)
    requires from <= |rows|
    requires forall i :: from <= i < |rows| ==> step.requires(i, rows[i])
    decreases |rows| - from
  {
    if from == |rows| then Run([], None)
    else
      var head := step(from, rows[from]);
      if !head.Completed() then head
      else
        var tail := RunRows(rows, step, from + 1);
        Run(head.trace + tail.trace, tail.failure)
  }

  /** The traces of rows[from..to], concatenated. */
  function StepTraces<R>(rows: seq<R>, step: (nat, R) --> Run, from: nat, until: nat): seq<Event>
    requires from <= until <= |rows|
    requires forall i :: from <= i < |rows| ==> step.requires(i, rows[i])
    decreases until - from
  {
    if from == until then [] else step(from, rows[from]).trace + StepTraces(rows, step, from + 1, until)
  }

  /** The loop completes exactly when every row completes, and then it has
      made every row's calls, in row order. */
  lemma {:induction false} RunRowsCompletes<R>(rows: seq<R>, step: (nat, R) --> Run, from: nat)
    requires from <= |rows|
    requires forall i :: from <= i < |rows| ==> step.requires(i, rows[i])
    ensures RunRows(rows, step, from).Completed()
      <==> forall i :: from <= i < |rows| ==> step(i, rows[i]).Completed()
    ensures RunRows(rows, step, from).Completed() ==>
      RunRows(rows, step, from).trace == StepTraces(rows, step, from, |rows|)
    decreases |rows| - from
  {
    if from < |rows| {
      RunRowsCompletes(rows, step, from + 1);
    }
  }

  /** A failing row aborts the loop with its own error: the calls made are
      those of the rows before it and its own, and no later row runs. */
  lemma {:induction false} RunRowsStopsAtFailure<R>(rows: seq<R>, step: (nat, R) --> Run, from: nat, j: nat)
    requires from <= j < |rows|
    requires forall i :: from <= i < |rows| ==> step.requires(i, rows[i])
    requires forall i :: from <= i < j ==> step(i, rows[i]).Completed()
    requires !step(j, rows[j]).Completed()
    ensures RunRows(rows, step, from).failure == step(j, rows[j]).failure
    ensures RunRows(rows, step, from).trace == StepTraces(rows, step, from, j + 1)
    decreases |rows| - from
  {
    if from < j {
      RunRowsStopsAtFailure(rows, step, from + 1, j);
      assert StepTraces(rows, step, from, j + 1)
        == step(from, rows[from]).trace + StepTraces(rows, step, from + 1, j + 1);
    } else {
      assert StepTraces(rows, step, j + 1, j + 1) == [];
      assert step(j, rows[j]).trace + [] == step(j, rows[j]).trace;
    }
  }

  /** A property every event of every row has, every event of the loop has. */
  /** A loop that fails ends with the error of its first failing row. */
  lemma {:induction false} RunRowsFailsAtFirstFailure<R>(rows: seq<R>, step: (nat, R) --> Run, from: nat)
    requires from <= |rows|
    requires forall i :: from <= i < |rows| ==> step.requires(i, rows[i])
    ensures var run := RunRows(rows, step, from);
      !run.Completed() ==>
        exists i :: from <= i < |rows| && !step(i, rows[i]).Completed() && run.failure == step(i, rows[i]).failure
          && forall j :: from <= j < i ==> step(j, rows[j]).Completed()
    decreases |rows| - from
  {
    if from < |rows| && step(from, rows[from]).Completed() {
      RunRowsFailsAtFirstFailure(rows, step, from + 1);
    }
  }

  lemma {:induction false} RunRowsEvents<R>(rows: seq<R>, step: (nat, R) --> Run, from: nat, p: Event -> bool)
    requires from <= |rows|
    requires forall i :: from <= i < |rows| ==> step.requires(i, rows[i])
    requires forall i, e :: from <= i < |rows| && e in step(i, rows[i]).trace ==> p(e)
    ensures forall e :: e in RunRows(rows, step, from).trace ==> p(e)
    decreases |rows| - from
  {
    if from < |rows| {
      RunRowsEvents(rows, step, from + 1, p);
    }
  }

  /** When every completed row attaches exactly once, a completed loop
      attaches exactly once per row. */
  lemma {:induction false} RunRowsAttachCount<R>(rows: seq<R>, step: (nat, R) --> Run, from: nat)
    requires from <= |rows|
    requires forall i :: from <= i < |rows| ==> step.requires(i, rows[i])
    requires forall i :: from <= i < |rows| && step(i, rows[i]).Completed() ==> AttachCount(step(i, rows[i]).trace) == 1
    ensures RunRows(rows, step, from).Completed() ==> AttachCount(RunRows(rows, step, from).trace) == |rows| - from
    decreases |rows| - from
  {
    if from < |rows| {
      RunRowsAttachCount(rows, step, from + 1);
      var head := step(from, rows[from]);
      if head.Completed() {
        AttachCountAppend(head.trace, RunRows(rows, step, from + 1).trace);
      }
    }
  }

  /** When every completed row makes exactly one call, row i's call sits at
      position i - from of a completed loop's trace. */
  lemma {:induction false} RunRowsSingleLayout<R>(rows: seq<R>, step: (nat, R) --> Run, from: nat)
    requires from <= |rows|
    requires forall i :: from <= i < |rows| ==> step.requires(i, rows[i])
    requires forall i :: from <= i < |rows| && step(i, rows[i]).Completed() ==> |step(i, rows[i]).trace| == 1
    ensures RunRows(rows, step, from).Completed() ==>
      && |RunRows(rows, step, from).trace| == |rows| - from
      && forall i :: from <= i < |rows| ==> step(i, rows[i]).trace == [RunRows(rows, step, from).trace[i - from]]
    decreases |rows| - from
  {
    if from < |rows| {
      RunRowsSingleLayout(rows, step, from + 1);
      var run := RunRows(rows, step, from);
      var head := step(from, rows[from]);
      var tail := RunRows(rows, step, from + 1);
      if run.Completed() {
        assert run.trace == head.trace + tail.trace;
        forall i | from < i < |rows|
          ensures step(i, rows[i]).trace == [run.trace[i - from]]
        {
          assert run.trace[i - from] == tail.trace[i - from - 1];
        }
      }
    }
  }

  /** When every completed row makes exactly two calls, row i's calls sit at
      positions 2 * (i - from) and 2 * (i - from) + 1 of a completed loop's
      trace. */
  lemma {:induction false} RunRowsPairLayout<R>(rows: seq<R>, step: (nat, R) --> Run, from: nat)
    requires from <= |rows|
    requires forall i :: from <= i < |rows| ==> step.requires(i, rows[i])
    requires forall i :: from <= i < |rows| && step(i, rows[i]).Completed() ==> |step(i, rows[i]).trace| == 2
    ensures RunRows(rows, step, from).Completed() ==>
      && |RunRows(rows, step, from).trace| == 2 * (|rows| - from)
      && forall i :: from <= i < |rows| ==>
           RunRows(rows, step, from).trace[2 * (i - from)..2 * (i - from) + 2] == step(i, rows[i]).trace
    decreases |rows| - from
  {
    if from < |rows| {
      RunRowsPairLayout(rows, step, from + 1);
      var run := RunRows(rows, step, from);
      var head := step(from, rows[from]);
      var tail := RunRows(rows, step, from + 1);
      if run.Completed() {
        assert run.trace == head.trace + tail.trace;
        assert run.trace[0..2] == head.trace;
        forall i | from < i < |rows|
          ensures run.trace[2 * (i - from)..2 * (i - from) + 2] == step(i, rows[i]).trace
        {
          assert run.trace[2 * (i - from)..2 * (i - from) + 2]
            == tail.trace[2 * (i - from - 1)..2 * (i - from - 1) + 2];
        }
      }
    }
  }

  /** Row i of a completed loop whose completed rows make two calls each:
      the row completed, and its calls are the loop's calls 2i and 2i+1. */
  lemma RunRowsPairAt<R>(rows: seq<R>, step: (nat, R) --> Run, i: nat)
    requires i < |rows|
    requires forall j :: 0 <= j < |rows| ==> step.requires(j, rows[j])
    requires forall j :: 0 <= j < |rows| && step(j, rows[j]).Completed() ==> |step(j, rows[j]).trace| == 2
    requires RunRows(rows, step, 0).Completed()
    ensures var t := RunRows(rows, step, 0).trace;
      && |t| == 2 * |rows|
      && step(i, rows[i]).Completed()
      && step(i, rows[i]).trace == [t[2 * i], t[2 * i + 1]]
  {
    RunRowsPairLayout(rows, step, 0);
    RunRowsCompletes(rows, step, 0);
    var t := RunRows(rows, step, 0).trace;
    assert t[2 * i..2 * i + 2] == [t[2 * i], t[2 * i + 1]];
  }
}

=== FILE: catalog.dfy ===
/** Identifier resolution: operator-facing names (template name, chassis
    number, host name) mapped to controller identifiers against the catalog
    snapshots a workflow fetches once at its start. */
module Catalog {
  import opened Wrappers
  import opened Failures

  type Uuid = string
  type TemplateId = string

  /** A device as the controller's device inventory reports it. The record has
      a "host-name" key only once the device has been commissioned, and a
      "templateId" key only while a device template is attached to it. */
  datatype Device = Device(
    uuid: Uuid,
    chassisNumber: string,
    serialNumber: string,
    hostName: Option<string>,
    deviceType: string,
    deviceIp: string,
    templateId: Option<TemplateId>)

  /** An entry of the controller's device-template list. */
  datatype DeviceTemplate = DeviceTemplate(templateId: TemplateId, templateName: string)

  /** Python's `next(x for x in s if p(x))`: the position of the first element
      satisfying `p`, or None where the generator would raise StopIteration. */
  function FirstIndex<T>(s: seq<T>, p: T -> bool): (r: Option<nat>)
    ensures r.Some? ==> r.value < |s| && p(s[r.value])
    ensures r.Some? ==> forall j :: 0 <= j < r.value ==> !p(s[j])
    ensures r.None? ==> forall j :: 0 <= j < |s| ==> !p(s[j])
  {
    if |s| == 0 then None
    else if p(s[0]) then Some(0)
    else match FirstIndex(s[1..], p)
      case None => None
      case Some(i) => Some(i + 1)
  }

  /** The template id of the first template called `name`; the script has no
      fallback, so an unknown name aborts the workflow. */
  function ResolveTemplateId(templates: seq<DeviceTemplate>, name: string): (r: Result<TemplateId, Error>)
    ensures r.Success? <==> exists i :: 0 <= i < |templates| && templates[i].templateName == name
    ensures r.Success? ==>
      exists i :: 0 <= i < |templates| && templates[i].templateName == name
        && templates[i].templateId == r.value
        && forall j :: 0 <= j < i ==> templates[j].templateName != name
    ensures r.Failure? ==> r.error == NoSuchTemplate(name)
  {
    match FirstIndex(templates, (t: DeviceTemplate) => t.templateName == name)
    case Some(i) => Success(templates[i].templateId)
    case None => Failure(NoSuchTemplate(name))
  }

  /** The first device whose chassis number is `chassisNumber`. */
  function FindDeviceByChassis(devices: seq<Device>, chassisNumber: string): (r: Result<Device, Error>)
    ensures r.Success? <==> exists i :: 0 <= i < |devices| && devices[i].chassisNumber == chassisNumber
    ensures r.Success? ==>
      exists i :: 0 <= i < |devices| && devices[i] == r.value && r.value.chassisNumber == chassisNumber
        && forall j :: 0 <= j < i ==> devices[j].chassisNumber != chassisNumber
    ensures r.Failure? ==> r.error == NoSuchDevice(chassisNumber)
  {
    match FirstIndex(devices, (d: Device) => d.chassisNumber == chassisNumber)
    case Some(i) => Success(devices[i])
    case None => Failure(NoSuchDevice(chassisNumber))
  }

  /** The first device that has a host name and whose host name is
      `hostName`; devices not yet commissioned have none and are skipped. */
  function FindDeviceByHostName(devices: seq<Device>, hostName: string): (r: Result<Device, Error>)
    ensures r.Success? <==> exists i :: 0 <= i < |devices| && devices[i].hostName == Some(hostName)
    ensures r.Success? ==>
      exists i :: 0 <= i < |devices| && devices[i] == r.value && r.value.hostName == Some(hostName)
        && forall j :: 0 <= j < i ==> devices[j].hostName != Some(hostName)
    ensures r.Failure? ==> r.error == NoSuchDevice(hostName)
  {
    match FirstIndex(devices, (d: Device) => d.hostName == Some(hostName))
    case Some(i) => Success(devices[i])
    case None => Failure(NoSuchDevice(hostName))
  }

  /** Python's `s.split(sep)` with an explicit separator: no trimming, empty
      fields kept, and at least one field even for the empty string. */
  function Split(s: string, sep: char): (parts: seq<string>)
    ensures |parts| >= 1
    ensures forall i :: 0 <= i < |parts| ==> sep !in parts[i]
  {
    if |s| == 0 then [""]
    else
      var rest := Split(s[1..], sep);
      if s[0] == sep then [""] + rest
      else [[s[0]] + rest[0]] + rest[1..]
  }

  /** Python's `sep.join(parts)`. */
  function Join(parts: seq<string>, sep: char): string
    requires |parts| >= 1
  {
    if |parts| == 1 then parts[0] else parts[0] + [sep] + Join(parts[1..], sep)
  }

  /** Joining the fields of a split gives back the string that was split. */
  lemma {:induction false} JoinSplit(s: string, sep: char)
    ensures Join(Split(s, sep), sep) == s
  {
    if |s| > 0 {
      JoinSplit(s[1..], sep);
      var rest := Split(s[1..], sep);
      if s[0] == sep {
        assert ([""] + rest)[1..] == rest;
      } else if |rest| > 1 {
        var parts := [[s[0]] + rest[0]] + rest[1..];
        assert parts[1..] == rest[1..];
        assert Join(rest, sep) == rest[0] + [sep] + Join(rest[1..], sep);
      }
      assert s == [s[0]] + s[1..];
    }
  }

  lemma {:induction false} SplitWithoutSeparator(s: string, sep: char)
    requires sep !in s
    ensures Split(s, sep) == [s]
  {
    if |s| > 0 {
      SplitWithoutSeparator(s[1..], sep);
      assert s == [s[0]] + s[1..];
    }
  }

  lemma {:induction false} SplitAtSeparator(a: string, b: string, sep: char)
    requires sep !in a
    ensures Split(a + [sep] + b, sep) == [a] + Split(b, sep)
  {
    var s := a + [sep] + b;
    if |a| == 0 {
      assert s[1..] == b;
    } else {
      assert s[1..] == a[1..] + [sep] + b;
      SplitAtSeparator(a[1..], b, sep);
      assert [a[0]] + a[1..] == a;
    }
  }

  /** Splitting a join of separator-free fields gives back those fields. */
  lemma {:induction false} SplitJoin(parts: seq<string>, sep: char)
    requires |parts| >= 1
    requires forall i :: 0 <= i < |parts| ==> sep !in parts[i]
    ensures Split(Join(parts, sep), sep) == parts
  {
    if |parts| == 1 {
      SplitWithoutSeparator(parts[0], sep);
    } else {
      SplitJoin(parts[1..], sep);
      SplitAtSeparator(parts[0], Join(parts[1..], sep), sep);
      assert [parts[0]] + parts[1..] == parts;
    }
  }

  /** The list comprehension over the device inventory: the uuids of the
      devices whose chassis number is one of `chassisNumbers`, in inventory
      order. A chassis number no device carries contributes nothing. */
  function ResolveDeviceUuids(devices: seq<Device>, chassisNumbers: seq<string>): (uuids: seq<Uuid>)
    ensures |uuids| <= |devices|
    ensures forall u :: u in uuids <==>
      exists i :: 0 <= i < |devices| && devices[i].chassisNumber in chassisNumbers && devices[i].uuid == u
  {
    if |devices| == 0 then []
    else
      var rest := ResolveDeviceUuids(devices[1..], chassisNumbers);
      if devices[0].chassisNumber in chassisNumbers then [devices[0].uuid] + rest else rest
  }

  /** The positions of the inventory devices the comprehension selects that
      carry uuid `u`. */
  ghost function SelectedWith(devices: seq<Device>, chassisNumbers: seq<string>, u: Uuid): set<nat>
  {
    set i: nat | i < |devices| && devices[i].chassisNumber in chassisNumbers && devices[i].uuid == u
  }

  /** The result holds every uuid exactly as often as selected devices carry
      it: one entry per selected device, no more and no fewer. */
  lemma {:induction false} ResolveCountsSelectedDevices(devices: seq<Device>, chassisNumbers: seq<string>, u: Uuid)
    ensures multiset(ResolveDeviceUuids(devices, chassisNumbers))[u] == |SelectedWith(devices, chassisNumbers, u)|
  {
    if |devices| > 0 {
      ResolveCountsSelectedDevices(devices[1..], chassisNumbers, u);
      SelectedWithSplit(devices, chassisNumbers, u);
      ShiftedCardinality(SelectedWith(devices[1..], chassisNumbers, u));
    }
  }

  /** The selected positions of a non-empty inventory: position 0 if its
      device is selected, and the selected positions of the rest, one place
      on. */
  lemma SelectedWithSplit(devices: seq<Device>, chassisNumbers: seq<string>, u: Uuid)
    requires |devices| > 0
    ensures var head: set<nat> := if devices[0].chassisNumber in chassisNumbers && devices[0].uuid == u then {0} else {};
      var tail := SelectedWith(devices[1..], chassisNumbers, u);
      && SelectedWith(devices, chassisNumbers, u) == head + (set j: nat | j in tail :: j + 1)
      && 0 !in (set j: nat | j in tail :: j + 1)
  {
    var tail := SelectedWith(devices[1..], chassisNumbers, u);
    var shifted := set j: nat | j in tail :: j + 1;
    forall i: nat | i in SelectedWith(devices, chassisNumbers, u) && i > 0
      ensures i in shifted
    {
      assert i - 1 in tail;
    }
  }

  /** Moving every position one place on keeps the number of positions. */
  lemma {:induction false} ShiftedCardinality(s: set<nat>)
    ensures |set j: nat | j in s :: j + 1| == |s|
    decreases |s|
  {
    if s != {} {
      var x :| x in s;
      var rest := s - {x};
      ShiftedCardinality(rest);
      var whole := set j: nat | j in s :: j + 1;
      var part := set j: nat | j in rest :: j + 1;
      forall k | k in whole ensures k in part + {x + 1} {
        var j: nat :| j in s && k == j + 1;
        assert j == x || j in rest;
      }
      assert whole == part + {x + 1};
      assert x + 1 !in part;
    }
  }

  /** Some occurrence of `x` in `s` comes before some occurrence of `y`. */
  ghost predicate Precedes<T>(s: seq<T>, x: T, y: T) {
    exists a, b :: 0 <= a < b < |s| && s[a] == x && s[b] == y
  }

  /** No element of `s` occurs twice. */
  ghost predicate Distinct<T>(s: seq<T>) {
    forall a, b :: 0 <= a < b < |s| ==> s[a] != s[b]
  }

  /** The resolved uuids keep the inventory's order. */
  lemma {:induction false} ResolveKeepsInventoryOrder(devices: seq<Device>, chassisNumbers: seq<string>, i: nat, j: nat)
    requires i < j < |devices|
    requires devices[i].chassisNumber in chassisNumbers && devices[j].chassisNumber in chassisNumbers
    ensures Precedes(ResolveDeviceUuids(devices, chassisNumbers), devices[i].uuid, devices[j].uuid)
  {
    var uuids := ResolveDeviceUuids(devices, chassisNumbers);
    var rest := ResolveDeviceUuids(devices[1..], chassisNumbers);
    if i == 0 {
      assert uuids == [devices[0].uuid] + rest;
      assert devices[1..][j - 1] == devices[j];
      assert devices[j].uuid in rest;
      var b :| 0 <= b < |rest| && rest[b] == devices[j].uuid;
      assert uuids[0] == devices[0].uuid && uuids[b + 1] == devices[j].uuid;
    } else {
      assert devices[1..][i - 1] == devices[i] && devices[1..][j - 1] == devices[j];
      ResolveKeepsInventoryOrder(devices[1..], chassisNumbers, i - 1, j - 1);
      var a, b :| 0 <= a < b < |rest| && rest[a] == devices[i].uuid && rest[b] == devices[j].uuid;
      if devices[0].chassisNumber in chassisNumbers {
        assert uuids == [devices[0].uuid] + rest;
        assert uuids[a + 1] == devices[i].uuid && uuids[b + 1] == devices[j].uuid;
      } else {
        assert uuids == rest;
        assert uuids[a] == devices[i].uuid && uuids[b] == devices[j].uuid;
      }
    }
  }

  /** When the inventory's uuids are distinct, no uuid is resolved twice, even
      if a chassis number is listed twice in the cell. */
  lemma {:induction false} ResolveHasNoDuplicates(devices: seq<Device>, chassisNumbers: seq<string>)
    requires forall i, j :: 0 <= i < j < |devices| ==> devices[i].uuid != devices[j].uuid
    ensures Distinct(ResolveDeviceUuids(devices, chassisNumbers))
  {
    if |devices| > 0 {
      var tail := devices[1..];
      assert forall i, j :: 0 <= i < j < |tail| ==> tail[i].uuid != tail[j].uuid by {
        forall i, j | 0 <= i < j < |tail| ensures tail[i].uuid != tail[j].uuid {
          assert tail[i] == devices[i + 1] && tail[j] == devices[j + 1];
        }
      }
      ResolveHasNoDuplicates(tail, chassisNumbers);
      var rest := ResolveDeviceUuids(tail, chassisNumbers);
      if devices[0].chassisNumber in chassisNumbers {
        forall k | 0 <= k < |tail| ensures tail[k].uuid != devices[0].uuid {
          assert tail[k] == devices[k + 1];
        }
        assert devices[0].uuid !in rest;
        var uuids := [devices[0].uuid] + rest;
        forall a, b | 0 <= a < b < |uuids| ensures uuids[a] != uuids[b] {
          assert uuids[b] == rest[b - 1] && rest[b - 1] in rest;
          if a > 0 { assert uuids[a] == rest[a - 1]; } else { assert uuids[a] == devices[0].uuid; }
        }
        assert ResolveDeviceUuids(devices, chassisNumbers) == uuids;
      }
    }
  }

  /** The device uuids named by one comma-separated chassis cell of a mapping
      row. */
  function DeviceIdsForCell(devices: seq<Device>, cell: string): (uuids: seq<Uuid>)
    ensures |uuids| <= |devices|
    ensures forall u :: u in uuids <==>
      exists i :: 0 <= i < |devices| && devices[i].chassisNumber in Split(cell, ',') && devices[i].uuid == u
  {
    ResolveDeviceUuids(devices, Split(cell, ','))
  }
}

=== FILE: cloning.dfy ===
/** Template cloning for the reconfigure-and-rollout workflow: a copy of a
    device template that references one more feature template. */
module Cloning {
  import opened Wrappers

  /** Appended to the copy's name and description. */
  const ChangedSuffix: string := "-Changed"
  /** General templates of this type receive the new interface. */
  const VpnTemplateType: string := "cisco_vpn"
  /** Type of the feature template spliced in. */
  const SviTemplateType: string := "vpn-interface-svi"

  /** A reference from a general template to one of its sub-templates. */
  datatype SubTemplate = SubTemplate(templateId: string, templateType: string)

  /** An entry of a device template's "generalTemplates" list; the
      "subTemplates" key is optional. */
  datatype GeneralTemplate = GeneralTemplate(
    templateId: string,
    templateType: string,
    subTemplates: Option<seq<SubTemplate>>)

  /** A device template definition as the controller returns it; the keys the
      workflow does not touch are kept in `otherFields`. */
  datatype DeviceTemplateConfig = DeviceTemplateConfig(
    templateId: Option<string>,
    templateName: string,
    templateDescription: string,
    generalTemplates: seq<GeneralTemplate>,
    otherFields: map<string, string>)

  /** The entries that receive the new interface: VPN templates that already
      have a sub-template list. */
  predicate TakesInterface(g: GeneralTemplate)
  {
    g.templateType == VpnTemplateType && g.subTemplates.Some?
  }

  function SpliceInterface(g: GeneralTemplate, featureId: string): GeneralTemplate
  {
    if TakesInterface(g)
    then g.(subTemplates := Some(g.subTemplates.value + [SubTemplate(featureId, SviTemplateType)]))
    else g
  }

  /** The copy submitted as a new device template: no template id, suffixed
      name and description, and the feature `featureId` referenced once more
      by every VPN entry that has sub-templates. */
  function CloneTemplate(config: DeviceTemplateConfig, featureId: string): (clone: DeviceTemplateConfig)
    ensures clone.templateId == None
    ensures clone.templateName == config.templateName + ChangedSuffix
    ensures clone.templateDescription == config.templateDescription + ChangedSuffix
    ensures clone.otherFields == config.otherFields
    ensures |clone.generalTemplates| == |config.generalTemplates|
    ensures forall i :: 0 <= i < |clone.generalTemplates| ==>
      clone.generalTemplates[i].templateId == config.generalTemplates[i].templateId
      && clone.generalTemplates[i].templateType == config.generalTemplates[i].templateType
    ensures forall i :: 0 <= i < |clone.generalTemplates| && TakesInterface(config.generalTemplates[i]) ==>
      clone.generalTemplates[i].subTemplates
        == Some(config.generalTemplates[i].subTemplates.value + [SubTemplate(featureId, SviTemplateType)])
    ensures forall i :: 0 <= i < |clone.generalTemplates| && !TakesInterface(config.generalTemplates[i]) ==>
      clone.generalTemplates[i] == config.generalTemplates[i]
  {
    var general := config.generalTemplates;
    config.(
      templateId := None,
      templateName := config.templateName + ChangedSuffix,
      templateDescription := config.templateDescription + ChangedSuffix,
      generalTemplates := seq(|general|, i requires 0 <= i < |general| => SpliceInterface(general[i], featureId)))
  }

  /** How many sub-template references a template definition holds. */
  function ReferenceCount(general: seq<GeneralTemplate>): nat
  {
    if |general| == 0 then 0
    else
      (if general[0].subTemplates.Some? then |general[0].subTemplates.value| else 0)
        + ReferenceCount(general[1..])
  }

  /** How many entries of a template definition receive the new interface. */
  function InterfaceTakers(general: seq<GeneralTemplate>): nat
  {
    if |general| == 0 then 0
    else (if TakesInterface(general[0]) then 1 else 0) + InterfaceTakers(general[1..])
  }

  /** Cloning adds exactly one sub-template reference per receiving entry and
      removes none. */
  lemma {:induction false} CloneAddsOneReferencePerTaker(config: DeviceTemplateConfig, featureId: string)
    ensures ReferenceCount(CloneTemplate(config, featureId).generalTemplates)
      == ReferenceCount(config.generalTemplates) + InterfaceTakers(config.generalTemplates)
  {
    SplicedReferenceCount(config.generalTemplates, CloneTemplate(config, featureId).generalTemplates, featureId);
  }

  lemma {:induction false} SplicedReferenceCount(general: seq<GeneralTemplate>, spliced: seq<GeneralTemplate>, featureId: string)
    requires |spliced| == |general|
    requires forall i :: 0 <= i < |general| ==> spliced[i] == SpliceInterface(general[i], featureId)
    ensures ReferenceCount(spliced) == ReferenceCount(general) + InterfaceTakers(general)
  {
    if |general| > 0 {
      SplicedReferenceCount(general[1..], spliced[1..], featureId);
    }
  }
}

=== FILE: commissioning.dfy ===
/** Commissioning and store reclassification. Both run in two phases the
    operator starts separately: phase one links devices to templates and
    exports the template variables to the workbook for editing; phase two
    attaches the templates with the edited variables. The two workflows differ
    only in the mapping sheet their rows come from. */
module Commissioning {
  import opened Wrappers
  import opened Failures
  import opened Catalog
  import opened TemplateInputs
  import opened Calls

  /** A mapping row: a device template and a comma-separated list of chassis
      numbers. */
  datatype TemplateRow = TemplateRow(templateName: string, deviceChassisNumber: string)

  /** The operator's workbook: variable sets per sheet, one sheet per
      template name. */
  type Workbook = map<string, seq<InputSet>>

  /** Phase one for one row: fetch the template variables of the row's devices
      and export them, stripped of their status, to the sheet named after the
      template. */
  function ExportRow(templates: seq<DeviceTemplate>, devices: seq<Device>, ctl: Controller, row: TemplateRow): (run: Run)
    ensures run.Completed() <==> ResolveTemplateId(templates, row.templateName).Success?
    ensures !run.Completed() ==> run.trace == []
    ensures run.Completed() ==>
      && |run.trace| == 2
      && run.trace[0] == GetInput(ResolveTemplateId(templates, row.templateName).value,
                                  DeviceIdsForCell(devices, row.deviceChassisNumber))
      && run.trace[1].Export? && run.trace[1].sheet == row.templateName
      && run.trace[1].sets == StripAll(ctl.templateInput(run.trace[0].templateId, run.trace[0].deviceIds))
  {
    match ResolveTemplateId(templates, row.templateName)
    case Failure(e) => Run([], Some(e))
    case Success(templateId) =>
      var deviceIds := DeviceIdsForCell(devices, row.deviceChassisNumber);
      var sets := StripAll(ctl.templateInput(templateId, deviceIds));
      Run([GetInput(templateId, deviceIds), Export(row.templateName, sets)], None)
  }

  /** Phase one over all rows. */
  function ExportInputs(templates: seq<DeviceTemplate>, devices: seq<Device>, ctl: Controller, rows: seq<TemplateRow>): Run
  {
    RunRows(rows, (i: nat, row: TemplateRow) => ExportRow(templates, devices, ctl, row), 0)
  }

  /** Phase one completes iff every row's template name resolves. */
  lemma ExportCompletes(templates: seq<DeviceTemplate>, devices: seq<Device>, ctl: Controller, rows: seq<TemplateRow>)
    ensures ExportInputs(templates, devices, ctl, rows).Completed() <==>
      forall i :: 0 <= i < |rows| ==> ResolveTemplateId(templates, rows[i].templateName).Success?
  {
    var step := (i: nat, row: TemplateRow) => ExportRow(templates, devices, ctl, row);
    RunRowsCompletes(rows, step, 0);
  }

  /** Phase one reads the controller and writes the workbook but changes
      nothing on the controller, whatever its rows. */
  lemma {:induction false} ExportChangesNothing(templates: seq<DeviceTemplate>, devices: seq<Device>, ctl: Controller, rows: seq<TemplateRow>)
    ensures forall e :: e in ExportInputs(templates, devices, ctl, rows).trace ==> !Mutates(e)
  {
    var step := (i: nat, row: TemplateRow) => ExportRow(templates, devices, ctl, row);
    RunRowsEvents(rows, step, 0, (e: Event) => !Mutates(e));
  }

  /** A completed phase one makes, for every row in order, one variable fetch
      followed by one export. */
  lemma ExportLayout(templates: seq<DeviceTemplate>, devices: seq<Device>, ctl: Controller, rows: seq<TemplateRow>)
    ensures var run := ExportInputs(templates, devices, ctl, rows);
      run.Completed() ==>
        && |run.trace| == 2 * |rows|
        && forall i :: 0 <= i < |rows| ==>
             && run.trace[2 * i].GetInput?
             && run.trace[2 * i + 1] == Export(rows[i].templateName, StripAll(ctl.templateInput(run.trace[2 * i].templateId, run.trace[2 * i].deviceIds)))
  {
    var step := (i: nat, row: TemplateRow) => ExportRow(templates, devices, ctl, row);
    RunRowsPairLayout(rows, step, 0);
    var run := ExportInputs(templates, devices, ctl, rows);
    if run.Completed() {
      RunRowsCompletes(rows, step, 0);
      forall i | 0 <= i < |rows|
        ensures run.trace[2 * i].GetInput?
        ensures run.trace[2 * i + 1] == Export(rows[i].templateName, StripAll(ctl.templateInput(run.trace[2 * i].templateId, run.trace[2 * i].deviceIds)))
      {
        assert run.trace[2 * i..2 * i + 2] == step(i, rows[i]).trace;
        assert run.trace[2 * i] == step(i, rows[i]).trace[0];
        assert run.trace[2 * i + 1] == step(i, rows[i]).trace[1];
      }
    }
  }

  /** The workbook after the exports of a trace: each export replaces its
      sheet or adds it, and no sheet is ever dropped. */
  function ApplyExports(book: Workbook, trace: seq<Event>): (r: Workbook)
    ensures book.Keys <= r.Keys
    decreases |trace|
  {
    if |trace| == 0 then book
    else ApplyExports(if trace[0].Export? then book[trace[0].sheet := trace[0].sets] else book, trace[1..])
  }

  /** Phase two for one row: attach the row's template with the variables of
      the sheet named after it. */
  function AttachRow(templates: seq<DeviceTemplate>, book: Workbook, row: TemplateRow): (run: Run)
    ensures run.Completed() <==>
      ResolveTemplateId(templates, row.templateName).Success? && row.templateName in book
    ensures run.Completed() ==>
      run.trace == [Attach(ResolveTemplateId(templates, row.templateName).value, book[row.templateName])]
    ensures !run.Completed() ==> run.trace == []
  {
    match ResolveTemplateId(templates, row.templateName)
    case Failure(e) => Run([], Some(e))
    case Success(templateId) =>
      if row.templateName in book then Run([Attach(templateId, book[row.templateName])], None)
      else Run([], Some(NoSuchSheet(row.templateName)))
  }

  /** Phase two over all rows. */
  function AttachInputs(templates: seq<DeviceTemplate>, book: Workbook, rows: seq<TemplateRow>): Run
  {
    RunRows(rows, (i: nat, row: TemplateRow) => AttachRow(templates, book, row), 0)
  }

  /** Phase two completes iff every row's template resolves and the workbook
      has a sheet named after it. */
  lemma AttachCompletes(templates: seq<DeviceTemplate>, book: Workbook, rows: seq<TemplateRow>)
    ensures AttachInputs(templates, book, rows).Completed() <==>
      forall i :: 0 <= i < |rows| ==>
        ResolveTemplateId(templates, rows[i].templateName).Success? && rows[i].templateName in book
  {
    var step := (i: nat, row: TemplateRow) => AttachRow(templates, book, row);
    RunRowsCompletes(rows, step, 0);
  }

  /** A completed phase two attaches exactly once per row. */
  lemma AttachOncePerRow(templates: seq<DeviceTemplate>, book: Workbook, rows: seq<TemplateRow>)
    ensures var run := AttachInputs(templates, book, rows);
      run.Completed() ==> AttachCount(run.trace) == |rows| && forall e :: e in run.trace ==> e.Attach?
  {
    var step := (i: nat, row: TemplateRow) => AttachRow(templates, book, row);
    forall i | 0 <= i < |rows| && step(i, rows[i]).Completed()
      ensures AttachCount(step(i, rows[i]).trace) == 1
    {
      assert AttachCount(step(i, rows[i]).trace[1..]) == 0;
    }
    RunRowsAttachCount(rows, step, 0);
    RunRowsEvents(rows, step, 0, (e: Event) => e.Attach?);
  }

  /** A sheet that no export of `t` names keeps its content. */
  lemma {:induction false} ApplyExportsUntouched(book: Workbook, t: seq<Event>, sheet: string)
    requires forall j :: 0 <= j < |t| && t[j].Export? ==> t[j].sheet != sheet
    ensures sheet in ApplyExports(book, t) <==> sheet in book
    ensures sheet in book ==> ApplyExports(book, t)[sheet] == book[sheet]
    decreases |t|
  {
    if |t| > 0 {
      var next := if t[0].Export? then book[t[0].sheet := t[0].sets] else book;
      ApplyExportsUntouched(next, t[1..], sheet);
    }
  }

  /** A sheet holds what the last export naming it wrote. */
  lemma {:induction false} ApplyExportsLast(book: Workbook, t: seq<Event>, j: nat, sheet: string, sets: seq<InputSet>)
    requires j < |t| && t[j] == Export(sheet, sets)
    requires forall k :: j < k < |t| && t[k].Export? ==> t[k].sheet != sheet
    ensures sheet in ApplyExports(book, t) && ApplyExports(book, t)[sheet] == sets
    decreases |t|
  {
    var next := if t[0].Export? then book[t[0].sheet := t[0].sets] else book;
    if j == 0 {
      ApplyExportsUntouched(next, t[1..], sheet);
    } else {
      ApplyExportsLast(next, t[1..], j - 1, sheet, sets);
    }
  }

  /** No two rows name the same template. */
  predicate DistinctSheets(rows: seq<TemplateRow>)
  {
    forall i, j :: 0 <= i < j < |rows| ==> rows[i].templateName != rows[j].templateName
  }

  /** A completed phase one is, for each row, that row's own fetch and export
      at positions 2i and 2i+1. */
  lemma ExportPairs(templates: seq<DeviceTemplate>, devices: seq<Device>, ctl: Controller, rows: seq<TemplateRow>, i: nat)
    requires i < |rows|
    requires ExportInputs(templates, devices, ctl, rows).Completed()
    ensures var t := ExportInputs(templates, devices, ctl, rows).trace;
      var row := ExportRow(templates, devices, ctl, rows[i]);
      && |t| == 2 * |rows|
      && row.Completed()
      && t[2 * i] == row.trace[0] && t[2 * i + 1] == row.trace[1]
  {
    var step := (i: nat, row: TemplateRow) => ExportRow(templates, devices, ctl, row);
    var t := ExportInputs(templates, devices, ctl, rows).trace;
    RunRowsPairLayout(rows, step, 0);
    RunRowsCompletes(rows, step, 0);
    assert t[2 * i..2 * i + 2] == step(i, rows[i]).trace;
    assert t[2 * i] == t[2 * i..2 * i + 2][0];
    assert t[2 * i + 1] == t[2 * i..2 * i + 2][1];
  }

  /** After phase one, the sheet of row i holds row i's export, provided no
      other row names the same template. */
  lemma ExportedSheet(templates: seq<DeviceTemplate>, devices: seq<Device>, ctl: Controller, book: Workbook,
                      rows: seq<TemplateRow>, i: nat)
    requires i < |rows| && DistinctSheets(rows)
    requires ExportInputs(templates, devices, ctl, rows).Completed()
    ensures var t := ExportInputs(templates, devices, ctl, rows).trace;
      && |t| == 2 * |rows|
      && t[2 * i + 1].Export?
      && rows[i].templateName in ApplyExports(book, t)
      && ApplyExports(book, t)[rows[i].templateName] == t[2 * i + 1].sets
  {
    var t := ExportInputs(templates, devices, ctl, rows).trace;
    ExportPairs(templates, devices, ctl, rows, i);
    forall k | 2 * i + 1 < k < |t| && t[k].Export?
      ensures t[k].sheet != rows[i].templateName
    {
      var m := k / 2;
      ExportPairs(templates, devices, ctl, rows, m);
      assert k == 2 * m + 1 && i < m;
    }
    ApplyExportsLast(book, t, 2 * i + 1, rows[i].templateName, t[2 * i + 1].sets);
  }

  /** Phase two's step for row i, on the workbook phase one left, attaches
      row i's template with the variables exported for row i. */
  lemma AttachesExportedSheet(templates: seq<DeviceTemplate>, devices: seq<Device>, ctl: Controller, book: Workbook,
                              rows: seq<TemplateRow>, i: nat)
    requires i < |rows| && DistinctSheets(rows)
    requires ExportInputs(templates, devices, ctl, rows).Completed()
    ensures var exported := ExportInputs(templates, devices, ctl, rows).trace;
      && |exported| == 2 * |rows|
      && exported[2 * i].GetInput? && exported[2 * i + 1].Export?
      && AttachRow(templates, ApplyExports(book, exported), rows[i])
           == Run([Attach(exported[2 * i].templateId, exported[2 * i + 1].sets)], None)
      && forall s :: s in exported[2 * i + 1].sets ==> StatusKey !in s
  {
    ExportPairs(templates, devices, ctl, rows, i);
    ExportedSheet(templates, devices, ctl, book, rows, i);
  }

  /** Round trip of the two phases: when phase one completes over rows that
      name distinct templates and the operator leaves the exported sheets
      unchanged, phase two completes and attaches, row by row, each row's
      template with exactly the status-free variables exported for it. */
  lemma ExportThenAttach(templates: seq<DeviceTemplate>, devices: seq<Device>, ctl: Controller, book: Workbook,
                         rows: seq<TemplateRow>)
    requires DistinctSheets(rows)
    requires ExportInputs(templates, devices, ctl, rows).Completed()
    ensures var exported := ExportInputs(templates, devices, ctl, rows).trace;
      var run := AttachInputs(templates, ApplyExports(book, exported), rows);
      && |exported| == 2 * |rows|
      && run.Completed()
      && |run.trace| == |rows|
      && forall i :: 0 <= i < |rows| ==>
           && exported[2 * i].GetInput? && exported[2 * i + 1].Export?
           && run.trace[i] == Attach(exported[2 * i].templateId, exported[2 * i + 1].sets)
           && forall s :: s in exported[2 * i + 1].sets ==> StatusKey !in s
  {
    var exported := ExportInputs(templates, devices, ctl, rows).trace;
    var filled := ApplyExports(book, exported);
    var step := (i: nat, row: TemplateRow) => AttachRow(templates, filled, row);
    forall i | 0 <= i < |rows|
      ensures step(i, rows[i]).Completed() && |step(i, rows[i]).trace| == 1
    {
      AttachesExportedSheet(templates, devices, ctl, book, rows, i);
    }
    RunRowsCompletes(rows, step, 0);
    RunRowsSingleLayout(rows, step, 0);
    var run := AttachInputs(templates, filled, rows);
    assert |exported| == 2 * |rows| by {
      ExportLayout(templates, devices, ctl, rows);
    }
    forall i | 0 <= i < |rows|
      ensures exported[2 * i].GetInput? && exported[2 * i + 1].Export?
      ensures run.trace[i] == Attach(exported[2 * i].templateId, exported[2 * i + 1].sets)
      ensures forall s :: s in exported[2 * i + 1].sets ==> StatusKey !in s
    {
      AttachesExportedSheet(templates, devices, ctl, book, rows, i);
      assert [run.trace[i]] == step(i, rows[i]).trace;
    }
  }

  /** Two rows naming the same template share one sheet: phase one overwrites
      the first row's export with the second's, so phase two attaches the
      template twice with the second row's variables, and the first row's
      devices' variables are never attached. */
  lemma SharedSheetKeepsLastExport(templates: seq<DeviceTemplate>, devices: seq<Device>, ctl: Controller, book: Workbook,
                                   first: TemplateRow, second: TemplateRow)
    requires first.templateName == second.templateName
    requires ExportInputs(templates, devices, ctl, [first, second]).Completed()
    ensures var exported := ExportInputs(templates, devices, ctl, [first, second]).trace;
      var run := AttachInputs(templates, ApplyExports(book, exported), [first, second]);
      && |exported| == 4 && exported[2].GetInput? && exported[3].Export?
      && run.Completed()
      && run.trace == [Attach(exported[2].templateId, exported[3].sets), Attach(exported[2].templateId, exported[3].sets)]
  {
    var rows := [first, second];
    var exported := ExportInputs(templates, devices, ctl, rows).trace;
    ExportPairs(templates, devices, ctl, rows, 0);
    ExportPairs(templates, devices, ctl, rows, 1);
    ApplyExportsLast(book, exported, 3, second.templateName, exported[3].sets);
    var filled := ApplyExports(book, exported);
    var step := (i: nat, row: TemplateRow) => AttachRow(templates, filled, row);
    assert step(0, rows[0]).Completed() && step(1, rows[1]).Completed();
    RunRowsCompletes(rows, step, 0);
    RunRowsSingleLayout(rows, step, 0);
    var run := AttachInputs(templates, filled, rows);
    assert [run.trace[0]] == step(0, rows[0]).trace;
    assert [run.trace[1]] == step(1, rows[1]).trace;
  }

  /** An example: template "Branch-Std" is T1 and chassis CH123 is
      device U1, so phase one fetches T1's variables for [U1] and exports
      them without their status. */
  lemma BranchStdExample(ctl: Controller, device: Device)
    requires device.chassisNumber == "CH123" && device.uuid == "U1"
    ensures var run := ExportInputs([DeviceTemplate("T1", "Branch-Std")], [device], ctl, [TemplateRow("Branch-Std", "CH123")]);
      run.trace == [GetInput("T1", ["U1"]), Export("Branch-Std", StripAll(ctl.templateInput("T1", ["U1"])))]
  {
    var devices := [device];
    assert Split("CH123", ',') == ["CH123"] by {
      SplitWithoutSeparator("CH123", ',');
    }
    assert DeviceIdsForCell(devices, "CH123") == ["U1"];
    var run := ExportInputs([DeviceTemplate("T1", "Branch-Std")], devices, ctl, [TemplateRow("Branch-Std", "CH123")]);
    assert run.trace == ExportRow([DeviceTemplate("T1", "Branch-Std")], devices, ctl, TemplateRow("Branch-Std", "CH123")).trace + [];
  }
}

=== FILE: decimal.dfy ===
/** Decimal rendering of a counter, as an f-string renders a Python int. */
module Decimal {

  function DigitChar(d: nat): (c: char)
    requires d < 10
  {
    ('0' as int + d) as char
  }

  function DigitValue(c: char): nat
  {
    if '0' <= c <= '9' then c as int - '0' as int else 0
  }

  /** The decimal digits of `n`, most significant first, without leading
      zeros. */
  function NatToString(n: nat): (s: string)
    ensures |s| >= 1
    ensures forall i :: 0 <= i < |s| ==> '0' <= s[i] <= '9'
    ensures |s| > 1 ==> s[0] != '0'
  {
    if n < 10 then [DigitChar(n)] else NatToString(n / 10) + [DigitChar(n % 10)]
  }

  /** The number a string of decimal digits denotes. */
  function ParseDecimal(s: string): nat
  {
    if |s| == 0 then 0 else ParseDecimal(s[..|s| - 1]) * 10 + DigitValue(s[|s| - 1])
  }

  /** Reading back the rendering of `n` gives `n`. */
  lemma {:induction false} ParseNatToString(n: nat)
    ensures ParseDecimal(NatToString(n)) == n
  {
    if n >= 10 {
      ParseNatToString(n / 10);
      var s := NatToString(n);
      assert s[..|s| - 1] == NatToString(n / 10);
    }
  }

  /** Distinct counters render as distinct strings. */
  lemma NatToStringInjective(m: nat, n: nat)
    requires m != n
    ensures NatToString(m) != NatToString(n)
  {
    ParseNatToString(m);
    ParseNatToString(n);
  }

  /** A common prefix followed by distinct counters gives distinct strings. */
  lemma PrefixedCounterInjective(prefix: string, suffix: string, m: nat, n: nat)
    requires m != n
    ensures prefix + NatToString(m) + suffix != prefix + NatToString(n) + suffix
  {
    NatToStringInjective(m, n);
    CancelAffixes(prefix, NatToString(m), NatToString(n), suffix);
  }

  lemma CancelAffixes(prefix: string, x: string, y: string, suffix: string)
    ensures prefix + x + suffix == prefix + y + suffix ==> x == y
  {
    var a, b := prefix + x + suffix, prefix + y + suffix;
    if a == b {
      assert |x| == |y|;
      assert a[|prefix|..|prefix| + |x|] == x;
      assert b[|prefix|..|prefix| + |y|] == y;
    }
  }
}

=== FILE: decommissioning.dfy ===
/** Decommissioning a closed branch's router: switch it to CLI mode, revoke its
    certificate and push the revocation to the controllers. */
module Decommissioning {
  import opened Wrappers
  import opened Catalog
  import opened Calls

  /** The teardown of the first device whose host name is `hostName`. Nothing
      is called when no device has that host name. */
  function DecommissionRouter(devices: seq<Device>, hostName: string): (run: Run)
    ensures run.Completed() <==> exists i :: 0 <= i < |devices| && devices[i].hostName == Some(hostName)
    ensures !run.Completed() ==> run.trace == []
    ensures run.Completed() ==>
      exists i :: 0 <= i < |devices| && devices[i].hostName == Some(hostName)
        && (forall j :: 0 <= j < i ==> devices[j].hostName != Some(hostName))
        && run.trace == [
             Detach(devices[i].deviceType, devices[i].uuid, devices[i].deviceIp),
             Invalidate(devices[i].chassisNumber, devices[i].serialNumber),
             Sync]
  {
    match FindDeviceByHostName(devices, hostName)
    case Failure(e) => Run([], Some(e))
    case Success(device) =>
      Run([Detach(device.deviceType, device.uuid, device.deviceIp),
           Invalidate(device.chassisNumber, device.serialNumber),
           Sync], None)
  }

  /** An example: host "edge-07" is device U7 with chassis C7 and
      serial S7, so the calls are a detach of U7, the invalidation of C7/S7 and
      a sync, in that order. A device without a host name ahead of it is
      skipped. */
  lemma Edge07Example(unnamed: Device, edge: Device)
    requires unnamed.hostName == None
    requires edge.hostName == Some("edge-07") && edge.uuid == "U7"
    requires edge.chassisNumber == "C7" && edge.serialNumber == "S7"
    ensures DecommissionRouter([unnamed, edge], "edge-07").trace
      == [Detach(edge.deviceType, "U7", edge.deviceIp), Invalidate("C7", "S7"), Sync]
  {
    assert [unnamed, edge][1] == edge;
  }
}

=== FILE: errors.dfy ===
/** The ways a workflow of the orchestration script can abort. The script
    catches nothing: every one of these ends the running workflow, and the
    controller calls made before it stay made. */
module Failures {

  datatype Error =
      /** `next` over the device-template list found no template of this
          name (StopIteration). */
    | NoSuchTemplate(templateName: string)
      /** `next` over the device inventory found no device with this chassis
          number or host name (StopIteration). */
    | NoSuchDevice(key: string)
      /** The device record has no "templateId" key (KeyError). */
    | NoTemplateAttached(deviceId: string)
      /** The controller answered a template-input request with an empty list,
          so indexing its first element fails (IndexError). */
    | EmptyTemplateInput(templateId: string)
      /** The operator's workbook has no sheet of this name. */
    | NoSuchSheet(sheetName: string)
}

=== FILE: inputs.dfy ===
/** Template-input shaping: the per-device variable maps the controller returns
    for a device template, and the edits the workflows make to them before
    they are attached again. */
module TemplateInputs {
  import opened Decimal

  /** One device's template variables, keyed by variable name or variable
      path. */
  type InputSet = map<string, string>

  /** Transient status the controller adds on read; never resubmitted. */
  const StatusKey: string := "csv-status"
  /** The device the input set belongs to. */
  const DeviceIdKey: string := "csv-deviceId"

  /** The keys the rollout writes for the k-th device. */
  const DeviceIpKey: string := "csv-deviceIP"
  const HostNameKey: string := "csv-host-name"
  const SystemHostNameKey: string := "//system/host-name"
  const SystemIpKey: string := "//system/system-ip"
  const SiteIdKey: string := "//system/site-id"
  const SviNameKey: string := "/0/vpn_if_svi_100_if_name/interface/if-name"
  const SviDescriptionKey: string := "/0/vpn_if_svi_100_if_name/interface/description"
  const SviAddressKey: string := "/0/vpn_if_svi_100_if_name/interface/ip/address"

  const RolloutKeys: set<string> :=
    {DeviceIpKey, HostNameKey, SystemHostNameKey, SystemIpKey, SiteIdKey,
     SviNameKey, SviDescriptionKey, SviAddressKey}

  /** The input set without its transient status, if it had one. */
  function StripStatus(input: InputSet): (r: InputSet)
    ensures StatusKey !in r
    ensures forall k :: k != StatusKey ==> (k in r <==> k in input)
    ensures forall k :: k in r ==> r[k] == input[k]
  {
    input - {StatusKey}
  }

  /** Stripping twice is stripping once. */
  lemma StripStatusIdempotent(input: InputSet)
    ensures StripStatus(StripStatus(input)) == StripStatus(input)
  {
  }

  /** Stripping an input set without a status changes nothing. */
  lemma StripStatusAbsent(input: InputSet)
    requires StatusKey !in input
    ensures StripStatus(input) == input
  {
  }

  /** Every input set of a controller answer, stripped of its status. */
  function StripAll(sets: seq<InputSet>): (r: seq<InputSet>)
    ensures |r| == |sets|
    ensures forall i :: 0 <= i < |r| ==> StatusKey !in r[i]
    ensures forall i, k :: 0 <= i < |r| && k != StatusKey && k in sets[i] ==> k in r[i] && r[i][k] == sets[i][k]
    ensures forall i :: 0 <= i < |r| ==> r[i].Keys <= sets[i].Keys
  {
    seq(|sets|, i requires 0 <= i < |sets| => StripStatus(sets[i]))
  }

  /** The replacement device's input set: the broken device's variables,
      without the status, claimed for the replacement's uuid. */
  function PrepareReplacementInput(brokenInput: InputSet, replacementId: string): (r: InputSet)
    ensures StatusKey !in r
    ensures DeviceIdKey in r && r[DeviceIdKey] == replacementId
    ensures forall k :: k != StatusKey && k != DeviceIdKey ==> (k in r <==> k in brokenInput)
    ensures forall k :: k in r && k != DeviceIdKey ==> r[k] == brokenInput[k]
  {
    StripStatus(brokenInput)[DeviceIdKey := replacementId]
  }

  /** System ip and management address given to the k-th device of a rollout. */
  function RolloutSystemIp(k: nat): string { "10.10.119." + NatToString(k) }

  /** Host name given to the k-th device of a rollout. */
  function RolloutHostName(k: nat): string { "api-test-" + NatToString(k) }

  /** Address of the new SVI interface of the k-th device of a rollout. */
  function RolloutInterfaceAddress(k: nat): string { "100.100.100." + NatToString(k) + "/24" }

  /** The input set attached for the k-th device of a rollout: the status
      stripped, then the counter-driven identity and the new interface's
      variables written over whatever the controller proposed. */
  function PrepareRolloutInput(input: InputSet, k: nat): (r: InputSet)
    ensures StatusKey !in r
    ensures r.Keys == (input.Keys - {StatusKey}) + RolloutKeys
    ensures r[DeviceIpKey] == RolloutSystemIp(k) && r[SystemIpKey] == RolloutSystemIp(k)
    ensures r[HostNameKey] == RolloutHostName(k) && r[SystemHostNameKey] == RolloutHostName(k)
    ensures r[SiteIdKey] == "119"
    ensures r[SviNameKey] == "Vlan100" && r[SviDescriptionKey] == "Changed by API"
    ensures r[SviAddressKey] == RolloutInterfaceAddress(k)
    ensures forall key :: key in r && key !in RolloutKeys ==> r[key] == input[key]
  {
    StripStatus(input)
      [DeviceIpKey := RolloutSystemIp(k)]
      [HostNameKey := RolloutHostName(k)]
      [SystemHostNameKey := RolloutHostName(k)]
      [SystemIpKey := RolloutSystemIp(k)]
      [SiteIdKey := "119"]
      [SviNameKey := "Vlan100"]
      [SviDescriptionKey := "Changed by API"]
      [SviAddressKey := RolloutInterfaceAddress(k)]
  }

  /** Two devices of one rollout never receive the same system ip, host name
      or interface address. */
  lemma RolloutIdentitiesDistinct(j: nat, k: nat)
    requires j != k
    ensures RolloutSystemIp(j) != RolloutSystemIp(k)
    ensures RolloutHostName(j) != RolloutHostName(k)
    ensures RolloutInterfaceAddress(j) != RolloutInterfaceAddress(k)
  {
    PrefixedCounterInjective("10.10.119.", "", j, k);
    assert "10.10.119." + NatToString(j) + "" == RolloutSystemIp(j);
    assert "10.10.119." + NatToString(k) + "" == RolloutSystemIp(k);
    PrefixedCounterInjective("api-test-", "", j, k);
    assert "api-test-" + NatToString(j) + "" == RolloutHostName(j);
    assert "api-test-" + NatToString(k) + "" == RolloutHostName(k);
    PrefixedCounterInjective("100.100.100.", "/24", j, k);
  }
}

=== FILE: orchestrator.dfy ===
/** The top-level dispatcher: the operator's menu choice selects one of the
    five workflows, and for commissioning and reclassification a phase. */
module Orchestrator {
  import opened Wrappers
  import opened Catalog
  import opened Calls
  import opened Commissioning
  import opened Decommissioning
  import opened Replacement
  import opened Rollout

  /** What the operator supplies: the menu choices, the answers to the
      prompts, the mapping rows of each sheet and the workbook phase two
      reads. */
  datatype OperatorInput = OperatorInput(
    workflow: int,
    subworkflow: int,
    hostName: string,
    templateName: string,
    commissionRows: seq<TemplateRow>,
    rmaRows: seq<RmaRow>,
    reclassificationRows: seq<TemplateRow>,
    workbook: Workbook)

  /** Commissioning and reclassification: phase 1 exports, phase 2 attaches,
      any other choice does nothing. */
  function TemplateWorkflow(templates: seq<DeviceTemplate>, devices: seq<Device>, ctl: Controller,
                            subworkflow: int, rows: seq<TemplateRow>, book: Workbook): (run: Run)
    ensures subworkflow == 1 ==> forall e :: e in run.trace ==> !Mutates(e)
    ensures subworkflow == 2 ==> forall e :: e in run.trace ==> e.Attach?
    ensures subworkflow != 1 && subworkflow != 2 ==> run.trace == [] && run.Completed()
  {
    if subworkflow == 1 then
      ExportChangesNothing(templates, devices, ctl, rows);
      ExportInputs(templates, devices, ctl, rows)
    else if subworkflow == 2 then
      var step := (i: nat, row: TemplateRow) => AttachRow(templates, book, row);
      RunRowsEvents(rows, step, 0, (e: Event) => e.Attach?);
      AttachInputs(templates, book, rows)
    else Run([], None)
  }

  /** Menu entries 1 to 5 start commissioning, decommissioning, RMA,
      reclassification and configuration changes; any other number does
      nothing. */
  function WorkflowStarter(templates: seq<DeviceTemplate>, devices: seq<Device>, ctl: Controller, op: OperatorInput): (run: Run)
    requires op.workflow == 3 ==> SyncsFinish(ctl, op.rmaRows)
    ensures !(1 <= op.workflow <= 5) ==> run.trace == [] && run.Completed()
  {
    if op.workflow == 1 then TemplateWorkflow(templates, devices, ctl, op.subworkflow, op.commissionRows, op.workbook)
    else if op.workflow == 2 then DecommissionRouter(devices, op.hostName)
    else if op.workflow == 3 then Rma(devices, ctl, op.rmaRows)
    else if op.workflow == 4 then TemplateWorkflow(templates, devices, ctl, op.subworkflow, op.reclassificationRows, op.workbook)
    else if op.workflow == 5 then ConfigureChanges(templates, ctl, op.templateName)
    else Run([], None)
  }

  /** Reclassification behaves exactly as commissioning on the same rows. */
  lemma ReclassificationIsCommissioning(templates: seq<DeviceTemplate>, devices: seq<Device>, ctl: Controller, op: OperatorInput)
    requires op.workflow == 4
    ensures WorkflowStarter(templates, devices, ctl, op)
      == WorkflowStarter(templates, devices, ctl, op.(workflow := 1, commissionRows := op.reclassificationRows))
  {
  }

  /** Neither phase of commissioning or reclassification deletes a device. */
  lemma TemplateWorkflowNeverRemoves(templates: seq<DeviceTemplate>, devices: seq<Device>, ctl: Controller,
                                     subworkflow: int, rows: seq<TemplateRow>, book: Workbook)
    ensures forall e :: e in TemplateWorkflow(templates, devices, ctl, subworkflow, rows, book).trace ==> !e.Remove?
  {
  }

  lemma NoRemovesFollowDone(t: seq<Event>, allowed: set<(string, Uuid)>)
    requires forall e :: e in t ==> !e.Remove?
    ensures RemovesFollowDone(t, allowed)
  {
    forall i | 0 <= i < |t| ensures !t[i].Remove? {
      assert t[i] in t;
    }
  }

  /** Whatever the workflow and however far it gets, a device is deleted only
      when it is the broken device of a TAC row of the RMA sheet, and only
      right after a poll of that row's sync action reported "done". */
  lemma NoRemoveBeforeSyncDone(templates: seq<DeviceTemplate>, devices: seq<Device>, ctl: Controller, op: OperatorInput)
    requires op.workflow == 3 ==> SyncsFinish(ctl, op.rmaRows)
    ensures RemovesFollowDone(WorkflowStarter(templates, devices, ctl, op).trace, TacRetirements(devices, ctl, op.rmaRows))
  {
    var run := WorkflowStarter(templates, devices, ctl, op);
    if op.workflow == 1 {
      TemplateWorkflowNeverRemoves(templates, devices, ctl, op.subworkflow, op.commissionRows, op.workbook);
      NoRemovesFollowDone(run.trace, TacRetirements(devices, ctl, op.rmaRows));
    } else if op.workflow == 4 {
      TemplateWorkflowNeverRemoves(templates, devices, ctl, op.subworkflow, op.reclassificationRows, op.workbook);
      NoRemovesFollowDone(run.trace, TacRetirements(devices, ctl, op.rmaRows));
    } else if op.workflow == 3 {
      RmaRemovesFollowDone(devices, ctl, op.rmaRows);
    } else if op.workflow == 5 {
      ConfigureChangesNeverRemoves(templates, ctl, op.templateName);
      NoRemovesFollowDone(run.trace, TacRetirements(devices, ctl, op.rmaRows));
    } else if op.workflow == 2 {
      NoRemovesFollowDone(run.trace, TacRetirements(devices, ctl, op.rmaRows));
    }
  }
}

=== FILE: replacement.dfy ===
/** Replacing (RMA) a broken router: the replacement takes over the broken
    device's template variables, the broken device is retired, and the
    replacement is attached to the broken device's template. */
module Replacement {
  import opened Wrappers
  import opened Failures
  import opened Catalog
  import opened TemplateInputs
  import opened Calls
  import opened ActionTracker

  /** A mapping row of the RMA sheet: chassis numbers of the broken and the
      replacement device, and whether the broken device went back through
      TAC (exactly "Y"). */
  datatype RmaRow = RmaRow(oldDevice: string, newDevice: string, rmaViaTac: string)

  predicate ViaTac(row: RmaRow) { row.rmaViaTac == "Y" }

  /** Every TAC row's sync action eventually reports "done"; the row at
      position i answers the i-th sync call. */
  ghost predicate SyncsFinish(ctl: Controller, rows: seq<RmaRow>)
  {
    forall i :: 0 <= i < |rows| && ViaTac(rows[i]) ==> Done in ctl.syncAction(i).statuses
  }

  /** Retiring the broken device. Through TAC: revoke its certificate, sync,
      wait until the sync is done, then delete the device. Otherwise:
      decommission it, revoke its certificate and sync without waiting. */
  function RetireBrokenDevice(broken: Device, action: SyncAction, viaTac: bool): (r: seq<Event>)
    requires viaTac ==> Done in action.statuses
    ensures viaTac ==> |r| >= 4 && r[|r| - 1] == Remove(broken.uuid)
    ensures forall i :: 0 <= i < |r| && r[i].Remove? ==>
      viaTac && i == |r| - 1 && r[i - 1] == Poll(action.id, Done)
    ensures forall i :: 0 <= i < |r| && r[i].Poll? ==> viaTac && r[i].actionId == action.id
    ensures !viaTac ==> Decommission(broken.uuid) in r
  {
    if viaTac then
      [Invalidate(broken.chassisNumber, broken.serialNumber), Sync]
        + PollUntilDone(action.id, action.statuses)
        + [Remove(broken.uuid)]
    else
      [Decommission(broken.uuid), Invalidate(broken.chassisNumber, broken.serialNumber), Sync]
  }

  /** One RMA row; `index` is the row's position, which is also the ordinal of
      its sync call. */
  function ReplaceRow(devices: seq<Device>, ctl: Controller, index: nat, row: RmaRow): (run: Run)
    requires ViaTac(row) ==> Done in ctl.syncAction(index).statuses
    ensures run.Completed() <==>
      && FindDeviceByChassis(devices, row.oldDevice).Success?
      && FindDeviceByChassis(devices, row.newDevice).Success?
      && FindDeviceByChassis(devices, row.oldDevice).value.templateId.Some?
      && |ctl.templateInput(FindDeviceByChassis(devices, row.oldDevice).value.templateId.value,
                            [FindDeviceByChassis(devices, row.oldDevice).value.uuid])| > 0    ensures !run.Completed() ==>
      |run.trace| <= 1 && forall i :: 0 <= i < |run.trace| ==> run.trace[i].GetInput?
    ensures FindDeviceByChassis(devices, row.oldDevice).Failure? ==>
      run.failure == Some(NoSuchDevice(row.oldDevice)) && run.trace == []
    ensures FindDeviceByChassis(devices, row.oldDevice).Success? && FindDeviceByChassis(devices, row.newDevice).Failure? ==>
      run.failure == Some(NoSuchDevice(row.newDevice)) && run.trace == []
    ensures FindDeviceByChassis(devices, row.oldDevice).Success? && FindDeviceByChassis(devices, row.newDevice).Success? ==>
      var broken := FindDeviceByChassis(devices, row.oldDevice).value;
      && (broken.templateId.None? ==> run.failure == Some(NoTemplateAttached(broken.uuid)) && run.trace == [])
      && (broken.templateId.Some? && |ctl.templateInput(broken.templateId.value, [broken.uuid])| == 0 ==>
            run.failure == Some(EmptyTemplateInput(broken.templateId.value))
            && run.trace == [GetInput(broken.templateId.value, [broken.uuid])])
  {
    match FindDeviceByChassis(devices, row.oldDevice)
    case Failure(e) => Run([], Some(e))
    case Success(broken) =>
      match FindDeviceByChassis(devices, row.newDevice)
      case Failure(e) => Run([], Some(e))
      case Success(replacement) =>
        match broken.templateId
        case None => Run([], Some(NoTemplateAttached(broken.uuid)))
        case Some(templateId) =>
          var fetch := GetInput(templateId, [broken.uuid]);
          var inputs := ctl.templateInput(templateId, [broken.uuid]);
          if |inputs| == 0 then Run([fetch], Some(EmptyTemplateInput(templateId)))
          else
            var sets := inputs[0 := PrepareReplacementInput(inputs[0], replacement.uuid)];
            var retire := RetireBrokenDevice(broken, ctl.syncAction(index), ViaTac(row));
            Run([fetch] + retire + [Attach(templateId, sets)], None)
  }

  /** The RMA workflow over all rows of the sheet. */
  function Rma(devices: seq<Device>, ctl: Controller, rows: seq<RmaRow>): (run: Run)
    requires SyncsFinish(ctl, rows)
    ensures run.Completed() <==> forall i :: 0 <= i < |rows| ==> ReplaceRow(devices, ctl, i, rows[i]).Completed()
    ensures !run.Completed() ==>
      exists i :: 0 <= i < |rows| && run.failure == ReplaceRow(devices, ctl, i, rows[i]).failure
        && !ReplaceRow(devices, ctl, i, rows[i]).Completed()
        && forall j :: 0 <= j < i ==> ReplaceRow(devices, ctl, j, rows[j]).Completed()
  {
    var step := (i: nat, row: RmaRow) requires ViaTac(row) ==> Done in ctl.syncAction(i).statuses
                  => ReplaceRow(devices, ctl, i, row);
    RunRowsCompletes(rows, step, 0);
    RunRowsFailsAtFirstFailure(rows, step, 0);
    RunRows(rows, step, 0)
  }

  /** The TAC retirement: revoke, sync, the polls, then the delete, which is
      the only delete and the only call after the poll that saw "done". */
  lemma TacRetirement(broken: Device, action: SyncAction)
    requires Done in action.statuses
    ensures var r := RetireBrokenDevice(broken, action, true);
      && |r| >= 4
      && r[0] == Invalidate(broken.chassisNumber, broken.serialNumber)
      && r[1] == Sync
      && r[2..|r| - 1] == PollUntilDone(action.id, action.statuses)
      && r[|r| - 2] == Poll(action.id, Done)
      && r[|r| - 1] == Remove(broken.uuid)
      && Count(r, (e: Event) => e.Remove?) == 1
      && AttachCount(r) == 0
  {
    var r := RetireBrokenDevice(broken, action, true);
    var polls := PollUntilDone(action.id, action.statuses);
    var head := [Invalidate(broken.chassisNumber, broken.serialNumber), Sync];
    assert r == head + polls + [Remove(broken.uuid)];
    assert r[2..|r| - 1] == polls;
    assert r[|r| - 2] == polls[|polls| - 1];
    var isRemove := (e: Event) => e.Remove?;
    CountNone(head + polls, isRemove);
    AttachCountNone(r);
    CountAppend(head + polls, [Remove(broken.uuid)], isRemove);
  }

  /** A completed TAC row: fetch, then the TAC retirement, then the attach.
      The delete comes right after the poll that saw "done"; the row deletes
      once and attaches once, last. */
  lemma TacRowTrace(devices: seq<Device>, ctl: Controller, index: nat, row: RmaRow)
    requires ViaTac(row) && Done in ctl.syncAction(index).statuses
    requires ReplaceRow(devices, ctl, index, row).Completed()
    ensures var t := ReplaceRow(devices, ctl, index, row).trace;
      var broken := FindDeviceByChassis(devices, row.oldDevice).value;
      var action := ctl.syncAction(index);
      && |t| >= 6
      && t[0] == GetInput(broken.templateId.value, [broken.uuid])
      && t[1] == Invalidate(broken.chassisNumber, broken.serialNumber)
      && t[2] == Sync
      && t[3..|t| - 2] == PollUntilDone(action.id, action.statuses)
      && t[|t| - 3] == Poll(action.id, Done)
      && t[|t| - 2] == Remove(broken.uuid)
      && t[|t| - 1].Attach? && t[|t| - 1].templateId == broken.templateId.value
      && Count(t, (e: Event) => e.Remove?) == 1
      && AttachCount(t) == 1
  {
    var t := ReplaceRow(devices, ctl, index, row).trace;
    var broken := FindDeviceByChassis(devices, row.oldDevice).value;
    var action := ctl.syncAction(index);
    var retire := RetireBrokenDevice(broken, action, true);
    ReplaceRowShape(devices, ctl, index, row);
    TacRetirement(broken, action);
    var fetch := [GetInput(broken.templateId.value, [broken.uuid])];
    var attach := [t[|t| - 1]];
    FramedPositions(fetch, retire, attach);
    FramedCounts(fetch, retire, attach);
  }

  /** Where the events of a retirement land once it is framed by one fetch
      and one attach. */
  lemma FramedPositions(fetch: seq<Event>, retire: seq<Event>, attach: seq<Event>)
    requires |fetch| == 1 && |retire| >= 4 && |attach| == 1
    ensures var t := fetch + retire + attach;
      && t[0] == fetch[0] && t[1] == retire[0] && t[2] == retire[1]
      && t[3..|t| - 2] == retire[2..|retire| - 1]
      && t[|t| - 3] == retire[|retire| - 2]
      && t[|t| - 2] == retire[|retire| - 1]
      && t[|t| - 1] == attach[0]
  {
  }

  /** A retirement framed by one fetch and one attach keeps its deletes and
      adds the attach. */
  lemma FramedCounts(fetch: seq<Event>, retire: seq<Event>, attach: seq<Event>)
    requires |fetch| == 1 && fetch[0].GetInput? && |attach| == 1 && attach[0].Attach?
    ensures Count(fetch + retire + attach, (e: Event) => e.Remove?) == Count(retire, (e: Event) => e.Remove?)
    ensures AttachCount(fetch + retire + attach) == AttachCount(retire) + 1
  {
    var isRemove := (e: Event) => e.Remove?;
    CountNone(fetch, isRemove);
    CountNone(attach, isRemove);
    CountAppend(fetch, retire, isRemove);
    CountAppend(fetch + retire, attach, isRemove);
    AttachCountNone(fetch);
    AttachCountAppend(fetch, retire);
    AttachCountAppend(fetch + retire, attach);
    assert AttachCount(attach[1..]) == 0;
  }

  /** A completed row off the TAC path: fetch, decommission, revoke, sync,
      attach; nothing is deleted and nothing is polled. */
  lemma NonTacRowTrace(devices: seq<Device>, ctl: Controller, index: nat, row: RmaRow)
    requires !ViaTac(row)
    requires ReplaceRow(devices, ctl, index, row).Completed()
    ensures var t := ReplaceRow(devices, ctl, index, row).trace;
      var broken := FindDeviceByChassis(devices, row.oldDevice).value;
      && |t| == 5
      && t[0] == GetInput(broken.templateId.value, [broken.uuid])
      && t[1] == Decommission(broken.uuid)
      && t[2] == Invalidate(broken.chassisNumber, broken.serialNumber)
      && t[3] == Sync
      && t[4].Attach? && t[4].templateId == broken.templateId.value
      && forall e :: e in t ==> !e.Remove? && !e.Poll?
  {
  }

  /** Whatever the branch, a completed row attaches once, as its last call,
      to the broken device's template, with the broken device's variables
      rebound to the replacement and stripped of their status. */
  lemma RowAttachesOnceLast(devices: seq<Device>, ctl: Controller, index: nat, row: RmaRow)
    requires ViaTac(row) ==> Done in ctl.syncAction(index).statuses
    requires ReplaceRow(devices, ctl, index, row).Completed()
    ensures var t := ReplaceRow(devices, ctl, index, row).trace;
      var broken := FindDeviceByChassis(devices, row.oldDevice).value;
      var replacement := FindDeviceByChassis(devices, row.newDevice).value;
      var inputs := ctl.templateInput(broken.templateId.value, [broken.uuid]);
      && AttachCount(t) == 1
      && t[|t| - 1] == Attach(broken.templateId.value, inputs[0 := PrepareReplacementInput(inputs[0], replacement.uuid)])
      && t[|t| - 1].sets[0][DeviceIdKey] == replacement.uuid
      && StatusKey !in t[|t| - 1].sets[0]
  {
    var t := ReplaceRow(devices, ctl, index, row).trace;
    var broken := FindDeviceByChassis(devices, row.oldDevice).value;
    var retire := RetireBrokenDevice(broken, ctl.syncAction(index), ViaTac(row));
    ReplaceRowShape(devices, ctl, index, row);
    AttachCountNone(retire);
    FramedCounts([GetInput(broken.templateId.value, [broken.uuid])], retire, [t[|t| - 1]]);
  }

  /** A completed RMA run attaches exactly once per row. */
  lemma RmaAttachesOncePerRow(devices: seq<Device>, ctl: Controller, rows: seq<RmaRow>)
    requires SyncsFinish(ctl, rows)
    ensures Rma(devices, ctl, rows).Completed() ==> AttachCount(Rma(devices, ctl, rows).trace) == |rows|
  {
    var step := (i: nat, row: RmaRow) requires ViaTac(row) ==> Done in ctl.syncAction(i).statuses
                  => ReplaceRow(devices, ctl, i, row);
    forall i | 0 <= i < |rows| && step(i, rows[i]).Completed()
      ensures AttachCount(step(i, rows[i]).trace) == 1
    {
      RowAttachesOnceLast(devices, ctl, i, rows[i]);
    }
    RunRowsAttachCount(rows, step, 0);
  }

  /** The retirements an RMA run may carry out: for every TAC row whose broken
      device resolves, the id of that row's sync action paired with the
      broken device's uuid. */
  function TacRetirements(devices: seq<Device>, ctl: Controller, rows: seq<RmaRow>): set<(string, Uuid)>
  {
    set i | 0 <= i < |rows| && ViaTac(rows[i]) && FindDeviceByChassis(devices, rows[i].oldDevice).Success?
      :: (ctl.syncAction(i).id, FindDeviceByChassis(devices, rows[i].oldDevice).value.uuid)
  }

  /** Every delete in `t` comes right after a poll that reported "done", and
      the polled action and the deleted device are a pair of `allowed`. */
  predicate RemovesFollowDone(t: seq<Event>, allowed: set<(string, Uuid)>)
  {
    forall i :: 0 <= i < |t| && t[i].Remove? ==>
      && 0 < i && t[i - 1].Poll? && t[i - 1].status == Done
      && (t[i - 1].actionId, t[i].deviceId) in allowed
  }

  lemma RemovesFollowDoneAppend(a: seq<Event>, b: seq<Event>, allowed: set<(string, Uuid)>)
    requires RemovesFollowDone(a, allowed) && RemovesFollowDone(b, allowed)
    ensures RemovesFollowDone(a + b, allowed)
  {
    var t := a + b;
    forall i | 0 <= i < |t| && t[i].Remove?
      ensures 0 < i && t[i - 1].Poll? && t[i - 1].status == Done
      ensures (t[i - 1].actionId, t[i].deviceId) in allowed
    {
      if i >= |a| {
        assert t[i] == b[i - |a|];
        assert t[i - 1] == b[i - |a| - 1];
      } else {
        assert t[i] == a[i] && t[i - 1] == a[i - 1];
      }
    }
  }

  lemma RemovesFollowDoneWiden(t: seq<Event>, allowed: set<(string, Uuid)>, wider: set<(string, Uuid)>)
    requires RemovesFollowDone(t, allowed) && allowed <= wider
    ensures RemovesFollowDone(t, wider)
  {
  }

  /** Retiring the broken device through TAC deletes it only right after a
      poll of the sync action reported "done"; otherwise it deletes nothing. */
  lemma RetirementRemovesFollowDone(broken: Device, action: SyncAction, viaTac: bool)
    requires viaTac ==> Done in action.statuses
    ensures RemovesFollowDone(RetireBrokenDevice(broken, action, viaTac),
                              if viaTac then {(action.id, broken.uuid)} else {})
  {
  }

  /** A completed row is the fetch, the retirement and the attach. */
  lemma ReplaceRowShape(devices: seq<Device>, ctl: Controller, index: nat, row: RmaRow)
    requires ViaTac(row) ==> Done in ctl.syncAction(index).statuses
    requires ReplaceRow(devices, ctl, index, row).Completed()
    ensures var t := ReplaceRow(devices, ctl, index, row).trace;
      var broken := FindDeviceByChassis(devices, row.oldDevice).value;
      && |t| >= 2 && t[|t| - 1].Attach?
      && t == [GetInput(broken.templateId.value, [broken.uuid])]
              + RetireBrokenDevice(broken, ctl.syncAction(index), ViaTac(row))
              + [t[|t| - 1]]
  {
  }

  /** The retirement row `index` may carry out: for a TAC row whose broken
      device resolves, its own sync action's id paired with that device's
      uuid; nothing otherwise. */
  function OwnRetirement(devices: seq<Device>, ctl: Controller, index: nat, row: RmaRow): set<(string, Uuid)>
  {
    if ViaTac(row) && FindDeviceByChassis(devices, row.oldDevice).Success?
    then {(ctl.syncAction(index).id, FindDeviceByChassis(devices, row.oldDevice).value.uuid)}
    else {}
  }

  /** Whatever the branch and however far it gets, row `index` deletes only
      its own broken device, and only right after a poll of its own sync
      action reported "done". */
  lemma RowRemovesFollowDone(devices: seq<Device>, ctl: Controller, index: nat, row: RmaRow)
    requires ViaTac(row) ==> Done in ctl.syncAction(index).statuses
    ensures RemovesFollowDone(ReplaceRow(devices, ctl, index, row).trace, OwnRetirement(devices, ctl, index, row))
  {
  }

  /** In a whole RMA run, however far it gets, every delete removes the broken
      device of a TAC row right after a poll of that row's sync action
      reported "done": no device is deleted before its revocation has reached
      the controllers. */
  lemma RmaRemovesFollowDone(devices: seq<Device>, ctl: Controller, rows: seq<RmaRow>)
    requires SyncsFinish(ctl, rows)
    ensures RemovesFollowDone(Rma(devices, ctl, rows).trace, TacRetirements(devices, ctl, rows))
  {
    var step := (i: nat, row: RmaRow) requires ViaTac(row) ==> Done in ctl.syncAction(i).statuses
                  => ReplaceRow(devices, ctl, i, row);
    var allowed := TacRetirements(devices, ctl, rows);
    forall i | 0 <= i < |rows| ensures RemovesFollowDone(step(i, rows[i]).trace, allowed) {
      RowRemovesFollowDone(devices, ctl, i, rows[i]);
      assert OwnRetirement(devices, ctl, i, rows[i]) <= allowed;
      RemovesFollowDoneWiden(step(i, rows[i]).trace, OwnRetirement(devices, ctl, i, rows[i]), allowed);
    }
    RunRowsRemovesFollowDone(rows, step, 0, allowed);
  }

  lemma {:induction false} RunRowsRemovesFollowDone(rows: seq<RmaRow>, step: (nat, RmaRow) --> Run, from: nat,
                                                    allowed: set<(string, Uuid)>)
    requires from <= |rows|
    requires forall i :: from <= i < |rows| ==> step.requires(i, rows[i])
    requires forall i :: from <= i < |rows| ==> RemovesFollowDone(step(i, rows[i]).trace, allowed)
    ensures RemovesFollowDone(RunRows(rows, step, from).trace, allowed)
    decreases |rows| - from
  {
    if from < |rows| {
      RunRowsRemovesFollowDone(rows, step, from + 1, allowed);
      var head := step(from, rows[from]);
      if head.Completed() {
        RemovesFollowDoneAppend(head.trace, RunRows(rows, step, from + 1).trace, allowed);
      }
    }
  }

  /** A run whose rows are all off the TAC path never deletes a device and
      never polls. */
  lemma RmaWithoutTacNeverRemoves(devices: seq<Device>, ctl: Controller, rows: seq<RmaRow>)
    requires forall i :: 0 <= i < |rows| ==> !ViaTac(rows[i])
    ensures forall e :: e in Rma(devices, ctl, rows).trace ==> !e.Remove? && !e.Poll?
  {
    var step := (i: nat, row: RmaRow) requires ViaTac(row) ==> Done in ctl.syncAction(i).statuses
                  => ReplaceRow(devices, ctl, i, row);
    forall i, e | 0 <= i < |rows| && e in step(i, rows[i]).trace ensures !e.Remove? && !e.Poll? {
      if step(i, rows[i]).Completed() {
        NonTacRowTrace(devices, ctl, i, rows[i]);
      }
    }
    RunRowsEvents(rows, step, 0, (e: Event) => !e.Remove? && !e.Poll?);
  }
}

=== FILE: rollout.dfy ===
/** Configuring changes on existing routers: copy a device template with one
    more interface, then move every device attached to the original onto the
    copy, one device at a time. */
module Rollout {
  import opened Wrappers
  import opened Failures
  import opened Catalog
  import opened TemplateInputs
  import opened Cloning
  import opened Calls

  /** The k-th device of the rollout (k from 1): fetch its variables for the
      new template, strip the status, write the counter-driven overrides into
      the first set and attach. */
  function RolloutDevice(ctl: Controller, newTemplateId: TemplateId, deviceId: Uuid, k: nat): (run: Run)
    ensures run.Completed() <==> |ctl.templateInput(newTemplateId, [deviceId])| > 0
    ensures |run.trace| >= 1 && run.trace[0] == GetInput(newTemplateId, [deviceId])
    ensures run.Completed() ==>
      && |run.trace| == 2
      && run.trace[1].Attach? && run.trace[1].templateId == newTemplateId
      && var inputs := ctl.templateInput(newTemplateId, [deviceId]);
         && |run.trace[1].sets| == |inputs|
         && run.trace[1].sets[0] == PrepareRolloutInput(inputs[0], k)
         && run.trace[1].sets[1..] == inputs[1..]
  {
    var fetch := GetInput(newTemplateId, [deviceId]);
    var inputs := ctl.templateInput(newTemplateId, [deviceId]);
    if |inputs| == 0 then Run([fetch], Some(EmptyTemplateInput(newTemplateId)))
    else Run([fetch, Attach(newTemplateId, inputs[0 := PrepareRolloutInput(inputs[0], k)])], None)
  }

  /** The calls before the rollout proper: read the template, add the feature
      template, add the copy, list the devices attached to the original. */
  function Preparation(ctl: Controller, templateId: TemplateId): seq<Event>
  {
    var clone := CloneTemplate(ctl.templateConfig(templateId), ctl.featureTemplateId);
    [GetConfig(templateId), AddFeatureTemplate, AddDeviceTemplate(clone), GetAttached(templateId)]
  }

  /** The rollout over the devices attached to the original template, numbered
      from 1 in the order the controller lists them. */
  function RolloutDevices(ctl: Controller, newTemplateId: TemplateId, deviceIds: seq<Uuid>): Run
  {
    RunRows(deviceIds, (i: nat, deviceId: Uuid) => RolloutDevice(ctl, newTemplateId, deviceId, i + 1), 0)
  }

  /** The rollout completes iff the copy yields variables for every device. */
  lemma RolloutCompletes(ctl: Controller, newTemplateId: TemplateId, deviceIds: seq<Uuid>)
    ensures RolloutDevices(ctl, newTemplateId, deviceIds).Completed() <==>
      forall i :: 0 <= i < |deviceIds| ==> |ctl.templateInput(newTemplateId, [deviceIds[i]])| > 0
  {
    var step := (i: nat, deviceId: Uuid) => RolloutDevice(ctl, newTemplateId, deviceId, i + 1);
    RunRowsCompletes(deviceIds, step, 0);
    forall i | 0 <= i < |deviceIds|
      ensures step(i, deviceIds[i]).Completed() <==> |ctl.templateInput(newTemplateId, [deviceIds[i]])| > 0
    {
    }
  }

  /** The whole workflow for the template called `templateName`. */
  function ConfigureChanges(templates: seq<DeviceTemplate>, ctl: Controller, templateName: string): (run: Run)
    ensures ResolveTemplateId(templates, templateName).Failure? ==> run.trace == [] && !run.Completed()
    ensures ResolveTemplateId(templates, templateName).Success? ==>
      var templateId := ResolveTemplateId(templates, templateName).value;
      var rollout := RolloutDevices(ctl, ctl.deviceTemplateId(CloneTemplate(ctl.templateConfig(templateId), ctl.featureTemplateId)),
                                    ctl.attachedDevices(templateId));
      && |run.trace| >= 4
      && run.trace[..4] == Preparation(ctl, templateId)
      && run.trace[4..] == rollout.trace
      && run.failure == rollout.failure
  {
    match ResolveTemplateId(templates, templateName)
    case Failure(e) => Run([], Some(e))
    case Success(templateId) =>
      var clone := CloneTemplate(ctl.templateConfig(templateId), ctl.featureTemplateId);
      var rollout := RolloutDevices(ctl, ctl.deviceTemplateId(clone), ctl.attachedDevices(templateId));
      Run(Preparation(ctl, templateId) + rollout.trace, rollout.failure)
  }

  /** The copy submitted has no template id, the suffixed name and the new
      feature spliced into its VPN entries, and the rollout targets the id the
      controller gave that copy. */
  lemma SubmitsClone(templates: seq<DeviceTemplate>, ctl: Controller, templateName: string)
    requires ResolveTemplateId(templates, templateName).Success?
    ensures var templateId := ResolveTemplateId(templates, templateName).value;
      var run := ConfigureChanges(templates, ctl, templateName);
      && run.trace[2].AddDeviceTemplate?
      && run.trace[2].config.templateId == None
      && run.trace[2].config.templateName == ctl.templateConfig(templateId).templateName + ChangedSuffix
      && forall e :: e in run.trace[4..] && (e.GetInput? || e.Attach?) ==>
           e.templateId == ctl.deviceTemplateId(run.trace[2].config)
  {
    var templateId := ResolveTemplateId(templates, templateName).value;
    var clone := CloneTemplate(ctl.templateConfig(templateId), ctl.featureTemplateId);
    var newTemplateId := ctl.deviceTemplateId(clone);
    var deviceIds := ctl.attachedDevices(templateId);
    var run := ConfigureChanges(templates, ctl, templateName);
    var rollout := RolloutDevices(ctl, newTemplateId, deviceIds);
    assert run.trace == Preparation(ctl, templateId) + rollout.trace;
    assert run.trace[2] == AddDeviceTemplate(clone);
    assert run.trace[4..] == rollout.trace;
    var step := (i: nat, deviceId: Uuid) => RolloutDevice(ctl, newTemplateId, deviceId, i + 1);
    RunRowsEvents(deviceIds, step, 0, (e: Event) => (e.GetInput? || e.Attach?) ==> e.templateId == newTemplateId);
  }

  /** A completed rollout over N devices makes exactly N attaches. */
  lemma RolloutAttachesOncePerDevice(ctl: Controller, newTemplateId: TemplateId, deviceIds: seq<Uuid>)
    ensures var run := RolloutDevices(ctl, newTemplateId, deviceIds);
      run.Completed() ==> AttachCount(run.trace) == |deviceIds|
  {
    var step := (i: nat, deviceId: Uuid) => RolloutDevice(ctl, newTemplateId, deviceId, i + 1);
    forall i | 0 <= i < |deviceIds| && step(i, deviceIds[i]).Completed()
      ensures AttachCount(step(i, deviceIds[i]).trace) == 1
    {
      var t := step(i, deviceIds[i]).trace;
      assert !t[0].Attach? && t[1..][0].Attach?;
      assert t[1..][1..] == [];
      assert AttachCount(t[1..][1..]) == 0;
      assert AttachCount(t[1..]) == 1;
    }
    RunRowsAttachCount(deviceIds, step, 0);
  }

  /** `e` attaches the new template with the variables the controller
      proposed for `deviceId`, counter `k` written into the first set. */
  predicate AttachesNumbered(e: Event, ctl: Controller, newTemplateId: TemplateId, deviceId: Uuid, k: nat)
  {
    var inputs := ctl.templateInput(newTemplateId, [deviceId]);
    && e.Attach? && e.templateId == newTemplateId
    && |inputs| > 0 && |e.sets| == |inputs|
    && e.sets[0] == PrepareRolloutInput(inputs[0], k)
    && e.sets[1..] == inputs[1..]
  }

  /** One device of a completed rollout: its pair of calls sits at 2i and
      2i+1 and the attach carries counter i+1. */
  lemma RolloutDeviceAt(ctl: Controller, newTemplateId: TemplateId, deviceIds: seq<Uuid>, i: nat)
    requires i < |deviceIds|
    requires RolloutDevices(ctl, newTemplateId, deviceIds).Completed()
    ensures var t := RolloutDevices(ctl, newTemplateId, deviceIds).trace;
      && |t| == 2 * |deviceIds|
      && t[2 * i] == GetInput(newTemplateId, [deviceIds[i]])
      && AttachesNumbered(t[2 * i + 1], ctl, newTemplateId, deviceIds[i], i + 1)
  {
    var step := (i: nat, deviceId: Uuid) => RolloutDevice(ctl, newTemplateId, deviceId, i + 1);
    RunRowsPairAt(deviceIds, step, i);
  }

  /** In a completed rollout the k-th device's variables are fetched and
      attached at positions 2(k-1) and 2(k-1)+1, and its first set is the
      controller's proposal with counter k written in: system ip 10.10.119.k,
      host name api-test-k, site 119, interface address 100.100.100.k/24
      (the contract of PrepareRolloutInput). */
  lemma RolloutNumbersDevices(ctl: Controller, newTemplateId: TemplateId, deviceIds: seq<Uuid>)
    ensures var run := RolloutDevices(ctl, newTemplateId, deviceIds);
      run.Completed() ==>
        && |run.trace| == 2 * |deviceIds|
        && forall i :: 0 <= i < |deviceIds| ==>
             && run.trace[2 * i] == GetInput(newTemplateId, [deviceIds[i]])
             && AttachesNumbered(run.trace[2 * i + 1], ctl, newTemplateId, deviceIds[i], i + 1)
  {
    var run := RolloutDevices(ctl, newTemplateId, deviceIds);
    if run.Completed() {
      if |deviceIds| > 0 {
        RolloutDeviceAt(ctl, newTemplateId, deviceIds, 0);
      }
      forall i | 0 <= i < |deviceIds|
        ensures run.trace[2 * i] == GetInput(newTemplateId, [deviceIds[i]])
        ensures AttachesNumbered(run.trace[2 * i + 1], ctl, newTemplateId, deviceIds[i], i + 1)
      {
        RolloutDeviceAt(ctl, newTemplateId, deviceIds, i);
      }
    }
  }

  /** No two devices of a completed rollout receive the same system ip, host
      name or interface address. */
  lemma RolloutIdentitiesUnique(ctl: Controller, newTemplateId: TemplateId, deviceIds: seq<Uuid>, i: nat, j: nat)
    requires i < j < |deviceIds|
    requires RolloutDevices(ctl, newTemplateId, deviceIds).Completed()
    ensures var t := RolloutDevices(ctl, newTemplateId, deviceIds).trace;
      && 2 * j + 1 < |t|
      && AttachesNumbered(t[2 * i + 1], ctl, newTemplateId, deviceIds[i], i + 1)
      && AttachesNumbered(t[2 * j + 1], ctl, newTemplateId, deviceIds[j], j + 1)
      && t[2 * i + 1].sets[0][SystemIpKey] != t[2 * j + 1].sets[0][SystemIpKey]
      && t[2 * i + 1].sets[0][SystemHostNameKey] != t[2 * j + 1].sets[0][SystemHostNameKey]
      && t[2 * i + 1].sets[0][SviAddressKey] != t[2 * j + 1].sets[0][SviAddressKey]
  {
    var t := RolloutDevices(ctl, newTemplateId, deviceIds).trace;
    RolloutDeviceAt(ctl, newTemplateId, deviceIds, i);
    RolloutDeviceAt(ctl, newTemplateId, deviceIds, j);
    var first := ctl.templateInput(newTemplateId, [deviceIds[i]])[0];
    var second := ctl.templateInput(newTemplateId, [deviceIds[j]])[0];
    assert t[2 * i + 1].sets[0] == PrepareRolloutInput(first, i + 1);
    assert t[2 * j + 1].sets[0] == PrepareRolloutInput(second, j + 1);
    RolloutIdentitiesDistinct(i + 1, j + 1);
  }

  /** A completed run of the whole workflow attaches exactly once per device
      attached to the original template, and nothing else is attached. */
  lemma ConfigureChangesAttachesOncePerDevice(templates: seq<DeviceTemplate>, ctl: Controller, templateName: string)
    requires ResolveTemplateId(templates, templateName).Success?
    ensures var run := ConfigureChanges(templates, ctl, templateName);
      run.Completed() ==>
        AttachCount(run.trace) == |ctl.attachedDevices(ResolveTemplateId(templates, templateName).value)|
  {
    var templateId := ResolveTemplateId(templates, templateName).value;
    var clone := CloneTemplate(ctl.templateConfig(templateId), ctl.featureTemplateId);
    var rollout := RolloutDevices(ctl, ctl.deviceTemplateId(clone), ctl.attachedDevices(templateId));
    var run := ConfigureChanges(templates, ctl, templateName);
    var preparation := Preparation(ctl, templateId);
    assert run.trace == preparation + rollout.trace;
    AttachCountNone(preparation);
    AttachCountAppend(preparation, rollout.trace);
    RolloutAttachesOncePerDevice(ctl, ctl.deviceTemplateId(clone), ctl.attachedDevices(templateId));
  }

  /** In a completed run of the whole workflow, the i-th device attached to
      the original template is fetched and attached against the copy's id
      right after the four preparation calls, with counter i+1. */
  lemma ConfigureChangesNumbersAttachedDevices(templates: seq<DeviceTemplate>, ctl: Controller, templateName: string, i: nat)
    requires ResolveTemplateId(templates, templateName).Success?
    requires ConfigureChanges(templates, ctl, templateName).Completed()
    requires i < |ctl.attachedDevices(ResolveTemplateId(templates, templateName).value)|
    ensures var templateId := ResolveTemplateId(templates, templateName).value;
      var run := ConfigureChanges(templates, ctl, templateName);
      var newTemplateId := ctl.deviceTemplateId(CloneTemplate(ctl.templateConfig(templateId), ctl.featureTemplateId));
      var deviceId := ctl.attachedDevices(templateId)[i];
      && |run.trace| == 4 + 2 * |ctl.attachedDevices(templateId)|
      && run.trace[4 + 2 * i] == GetInput(newTemplateId, [deviceId])
      && AttachesNumbered(run.trace[4 + 2 * i + 1], ctl, newTemplateId, deviceId, i + 1)
  {
    var templateId := ResolveTemplateId(templates, templateName).value;
    var newTemplateId := ctl.deviceTemplateId(CloneTemplate(ctl.templateConfig(templateId), ctl.featureTemplateId));
    var deviceIds := ctl.attachedDevices(templateId);
    var run := ConfigureChanges(templates, ctl, templateName);
    var rollout := RolloutDevices(ctl, newTemplateId, deviceIds);
    RolloutDeviceAt(ctl, newTemplateId, deviceIds, i);
    assert run.trace[4 + 2 * i] == rollout.trace[2 * i];
    assert run.trace[4 + 2 * i + 1] == rollout.trace[2 * i + 1];
  }

  /** Configuring changes never deletes a device. */
  lemma ConfigureChangesNeverRemoves(templates: seq<DeviceTemplate>, ctl: Controller, templateName: string)
    ensures forall e :: e in ConfigureChanges(templates, ctl, templateName).trace ==> !e.Remove?
  {
    match ResolveTemplateId(templates, templateName)
    case Failure(_) =>
    case Success(templateId) =>
      var clone := CloneTemplate(ctl.templateConfig(templateId), ctl.featureTemplateId);
      var newTemplateId := ctl.deviceTemplateId(clone);
      var step := (i: nat, deviceId: Uuid) => RolloutDevice(ctl, newTemplateId, deviceId, i + 1);
      var rollout := RolloutDevices(ctl, newTemplateId, ctl.attachedDevices(templateId));
      RunRowsEvents(ctl.attachedDevices(templateId), step, 0, (e: Event) => e.GetInput? || e.Attach?);
      assert forall e :: e in Preparation(ctl, templateId) ==> !e.Remove?;
      assert ConfigureChanges(templates, ctl, templateName).trace == Preparation(ctl, templateId) + rollout.trace;
  }
}

=== FILE: tracker.dfy ===
/** Waiting for a controller action: the replacement workflow's loop that
    polls the sync action until the controller reports it done. */
module ActionTracker {
  import opened Calls

  const Done: string := "done"

  /** The polls the loop makes for action `actionId` when successive status
      requests report `statuses`: the loop starts from "in_progress", so it
      always polls at least once, and it stops only at the first "done". Any
      other status, "failed" included, is polled past; when no "done" ever
      comes the loop never ends, which is why a "done" must be supplied. */
  function PollUntilDone(actionId: string, statuses: seq<string>): (polls: seq<Event>)
    requires Done in statuses
    ensures 1 <= |polls| <= |statuses|
    ensures forall i :: 0 <= i < |polls| ==> polls[i] == Poll(actionId, statuses[i])
    ensures statuses[|polls| - 1] == Done
    ensures forall i :: 0 <= i < |polls| - 1 ==> statuses[i] != Done
  {
    if statuses[0] == Done then [Poll(actionId, Done)]
    else
      assert Done in statuses[1..] by {
        var k :| 0 <= k < |statuses| && statuses[k] == Done;
        assert statuses[1..][k - 1] == Done;
      }
      [Poll(actionId, statuses[0])] + PollUntilDone(actionId, statuses[1..])
  }

  /** The loop's polls are exactly the statuses up to and including the first
      "done". */
  lemma PollsUpToFirstDone(actionId: string, statuses: seq<string>, k: nat)
    requires k < |statuses| && statuses[k] == Done
    requires forall i :: 0 <= i < k ==> statuses[i] != Done
    ensures |PollUntilDone(actionId, statuses)| == k + 1
  {
  }

  /** Queued, in progress twice, then done: four polls. */
  lemma FourPollsExample(actionId: string)
    ensures PollUntilDone(actionId, ["queued", "in_progress", "in_progress", "done"])
      == [Poll(actionId, "queued"), Poll(actionId, "in_progress"), Poll(actionId, "in_progress"), Poll(actionId, "done")]
  {
  }

  /** A "failed" report does not end the wait: the loop polls past it, so a
      polled "failed" is never the last poll. */
  lemma FailedDoesNotStop(actionId: string, statuses: seq<string>, k: nat)
    requires Done in statuses
    requires k < |PollUntilDone(actionId, statuses)| && statuses[k] == "failed"
    ensures k < |PollUntilDone(actionId, statuses)| - 1
  {
  }

  /** Failed, in progress, then done: three polls. */
  lemma FailedThenDoneExample(actionId: string)
    ensures |PollUntilDone(actionId, ["failed", "in_progress", "done"])| == 3
  {
  }
}

=== FILE: wrappers.dfy ===
/** Option and Result: the values the model uses where the script reads an
    optional dictionary key or raises an exception. */
module Wrappers {

  /** A value that may be missing, as an optional key of a JSON record. */
  datatype Option<+T> = None | Some(value: T)

  /** Either a value or the error that aborted the computation. */
  datatype Result<+T, +E> = Success(value: T) | Failure(error: E)
}
